=== FILE: README.md ===
# brpy — a Dafny model of the Realtime Trains client core

`brpy.py` is a small client for the Realtime Trains JSON API. It builds request paths, turns a
service-lookup response into a train's route, and corrects the dates of stops that run past
midnight. This project models that core as immutable records and pure functions:

- **time strings** (`_location_datetime`): `"HHMM"` becomes the service date at HH:MM. A
  six-character `"HHMMSS"` adds `int(SS)` seconds. Datetimes are integers counted in seconds,
  and a date's midnight is `date.toordinal() * 86400` (`Calendar.Midnight`).
- **location records** (`update_locations`): a JSON location is an ordered list of key/value
  pairs, read into a `Location` as follows.
  - The name is stripped.
  - The tiploc is required and the crs is optional.
  - The booked departure falls back to the booked pass time; the realtime departure falls back
    to the realtime pass time.
  - The delay is the first non-null `...Lateness...` value.
- **effective times** (`Location.arr` / `dep`): the realtime value when there is one, otherwise
  the timetable value.
- **route**: the first location is the origin, the last is the destination, and the ones in
  between are calling points. Stops booked before the origin's departure are moved to the next
  day.
- **request paths**: the station search `<prefix>/search<endpoint>/<station>[/to/<station>]/<Y>/<m>/<d>[/<HHMM>]`
  and the service lookup `<prefix>/service<endpoint>/<uid>/<Y>/<m>/<d>`. Each is proved to parse
  back to what it was built from, provided the station, destination, uid and endpoint contain no
  `/`. A segment holding `/` splits into several, and the path no longer determines it.
- **trains**: identity is the pair (uid, date). `Populate` takes the decoded response body and
  sets the running flag and the corrected route.

The exceptions the modelled code raises are `Result` failures naming the exception kind
(`Errors.Error`), not preconditions. They are:

- KeyError for a missing key, and IndexError for an empty location list;
- TypeError for a value of the wrong type, and for a comparison with a missing time;
- ValueError for a time string that does not parse;
- OverflowError when datetime arithmetic leaves the years 1 to 9999. Datetimes in that range
  are `Calendar.InDatetimeRange`. A date combined with a time of day always stays in range
  (`Calendar.CombineInRange`). Only the seconds of a six-character time and the one-day moves
  of the midnight correction can leave it.

Modules, in dependency order:

- `Wrappers`, `Errors`
- `Text`: strip, lower, digits, padding, split and join
- `Calendar`: dates, ordinals, `%Y/%m/%d` and `%H%M`
- `TimeParse`
- `Payload`: JSON values and dictionary access
- `Locations`, `Routes`, `Urls`, `Trains`
- `TrainExamples`: a worked three-stop lookup

The time-string lengths follow what the code does rather than what its comments suggest; the
midnight correction does not.

1. **Time-string lengths.** The comments in `_location_datetime` speak only of four- and
   six-character times, which suggests other lengths are errors. The code instead slices
   `[:4]` and adds seconds only when the length is exactly 6.
   - Five characters, or seven or more, are read from their first four characters
     (`TimeParse.ExtraCharactersIgnored`).
   - `strptime("%H%M")` also accepts two or three digits, such as `"930"`. It matches the
     pattern `(2[0-3]|[0-1]\d|\d)([0-5]\d|\d)`, takes the first match and must consume the whole
     string (`TimeParse.StrptimeHM`). So `"930"` is 09:30 and `"245"` is 02:45, while `"295"`
     is a ValueError (`TimeParse.ShortTimes`).
2. **The midnight correction.** As written it has no effect, except that it can raise
   OverflowError; see "## Findings". The code as written is modelled (`Routes.NormalizeAsWritten`),
   but `Trains.Populate` uses the correction the source comment describes, which moves a stop one
   day later (`Routes.Normalize`). Its routes therefore differ from the program's wherever a stop
   falls before the origin's departure; "## Left out" lists the differences.

## Model

| member | source | states |
|---|---|---|
| TimeParse.StrptimeHM | brpy.py:227-228 | `strptime(t, "%H%M")` succeeds only on 2-4 ASCII digits, and the hour and minute it gives are within 0-23 and 0-59 and are the two numerals the string splits into. A four-character string parses exactly when it is a valid HHMM, at HH*3600+MM*60 seconds. Two digits always parse, as hour and minute. Three digits parse exactly when the first two make an hour (then the last is the minute) or the second digit is at most 5 (then the first is the hour). |
| TimeParse.ShortTimes | brpy.py:227-229 | `"930"` is 09:30, `"245"` is 02:45, and `"295"` is a ValueError. |
| TimeParse.StrptimeFormatClock | brpy.py:45-47 | A clock rendered by `Calendar.FormatClock` (`%H%M`) in a search path parses back to the same hour and minute. |
| TimeParse.PyIntStrips | brpy.py:232 | `int()` (`TimeParse.PyInt`) skips surrounding whitespace, so whitespace on either side never changes the value. It skips less than `str.strip()` does: a string holding one of the information separators U+001C to U+001F is rejected, and any other string reads as what `str.strip()` leaves of it. |
| TimeParse.SeparatorNotSkipped | brpy.py:232 | `str.strip()` removes U+001C, but `int()` does not, so `"1030\x1c5"` is a ValueError. |
| TimeParse.PyIntDigits | brpy.py:232 | A plain run of decimal digits reads as its decimal value. |
| TimeParse.ParseTimeOffset | brpy.py:225-233 | Every failure is a ValueError. For four or more characters, a success needs a valid HHMM in the first four. A string of fewer than four characters succeeds exactly when strptime reads it whole, at its hour and minute. A four-character string succeeds exactly when it is a valid HHMM, with value HH*3600+MM*60. A six-character string succeeds exactly when its first four characters are a valid HHMM and `int()` reads the last two, and its value is the sum of the two. Any length other than six stays within one day. |
| TimeParse.SixCharTime | brpy.py:230-232 | A six-character time is its HHMM value plus the last two digits as seconds, and stays on the service date when those seconds are at most 59. |
| TimeParse.SecondsPastMidnight | brpy.py:231-232 | The seconds suffix is not range-checked: `"235999"` lies 39 seconds into the next day. |
| TimeParse.SignedSeconds | brpy.py:231-232 | The seconds suffix goes through `int()`, which accepts a sign: `"0000-1"` is one second before the service date begins. |
| TimeParse.ExtraCharactersIgnored | brpy.py:227-231 | For five characters, or seven or more, only the first four count: the result succeeds exactly when they are a valid HHMM and equals their value. |
| TimeParse.LocationDatetime | brpy.py:221-233 | A time string that does not parse is a ValueError. When it parses, the datetime exists exactly when it lies within the years 1 to 9999, and otherwise the error is OverflowError; this can happen only for a six-character time. The datetime lies that many seconds after the service date's midnight, and within that date for a four-character time. |
| TimeParse.LastDayOverflows | brpy.py:229-232 | On 9999-12-31, `"235999"` goes past the last datetime Python can hold and raises OverflowError. |
| TimeParse.FirstDayUnderflows | brpy.py:229-232 | On 0001-01-01, `"0000-1"` goes before the first datetime and raises OverflowError. |
| Calendar.OrdinalBounds | brpy.py:229 | The ordinal of a valid date lies between 1 (0001-01-01) and 3652059 (9999-12-31). |
| Calendar.CombineInRange | brpy.py:229 | A valid date combined with a time of day is always a datetime Python can hold. |
| Calendar.ParseFormatDate | brpy.py:38 | A date rendered by `Calendar.FormatDate` (`%Y/%m/%d`) reads back as the same year, month and day. |
| Text.Strip | brpy.py:66 | The stripped name has no whitespace at either end and is the original with only whitespace cut from both ends. |
| Text.Lower | brpy.py:21 | The lower-cased endpoint has the same length as the original, and each character is that character lower-cased. |
| Payload.Iterate | brpy.py:148 | `for x in v`, here and in the loop at brpy.py:212: a list gives its items, a dict its keys in order, a string its characters; null, booleans and numbers are a TypeError. |
| Locations.Arr | brpy.py:78-84 | `arr` is the realtime arrival when present, otherwise the booked arrival, and is absent exactly when both are. |
| Locations.Dep | brpy.py:86-92 | `dep` is the realtime departure when present, otherwise the booked departure, and is absent exactly when both are. |
| Locations.EffectiveTimesAreViews | brpy.py:78-92 | `arr` and `dep` are recomputed from the stored fields. Setting a realtime time shows through at once, clearing it falls back to the timetable, and a new timetable time is hidden by a realtime one. |
| Locations.TimeField | brpy.py:156-177 | A time field is absent exactly when its key is absent. When present it is the datetime of the key's string. A non-string value is a TypeError. A string that does not parse or leaves the calendar gives the same error as `LocationDatetime`. |
| Locations.FirstLateness | brpy.py:179-184 | The delay is the value of the first pair, in payload order, whose key contains `Lateness` and whose value is not null, or 0 when there is none. |
| Locations.DelayScan | brpy.py:179-184 | The loop as written, with its reset to 0 on every other key and its break on the first match, computes `FirstLateness`. Only a record with no keys leaves the delay unbound, and `Extract` never reaches that case: such a record raises KeyError for its description first. |
| Locations.Extract | brpy.py:148-188 | A missing description is a KeyError, and so is a missing tiploc. The name is the stripped description and the tiploc is as given. The crs is present only when its key is. Each time comes from its own key, and a departure comes from the booked/realtime departure key before the pass key. The delay is `FirstLateness`. Once both keys are present, the first time field that fails, in the order booked arrival, booked departure or pass, realtime arrival, realtime departure or pass, gives the error; when all four read, the record fails exactly when the description is not a string, with TypeError. |
| Locations.ExtractKnown | brpy.py:148-188 | A record whose description is a string, whose tiploc, crs and delay are those of a location, and whose time fields all read as that location's times, is that location. |
| Locations.ShiftDay | brpy.py:104-108 | Each present time field moves by exactly the given amount, absent ones stay absent, and the name, tiploc, crs and delay are unchanged. |
| Locations.ShiftDayInverse | brpy.py:104-108 | Shifting back undoes a shift, and the effective `arr`/`dep` move by the same amount. |
| Routes.SplitRoute | brpy.py:190-192 | An empty list is an IndexError. For two or more locations, origin + calling points + destination is the list in payload order. One location is both origin and destination, with no calling points. |
| Routes.CorrectStop | brpy.py:195-200 | Comparing with a missing time is a TypeError. A stop booked before the origin departs moves exactly one day later, or raises OverflowError when that would pass 9999-12-31. Any other stop is unchanged. |
| Routes.CorrectCallingPoints | brpy.py:195-197 | The calling points are corrected one by one in order. The loop succeeds exactly when every step does, and each result is that stop's correction. A failure carries the error of the first stop that fails. |
| Routes.Normalize | brpy.py:190-200 | An empty list is an IndexError. Otherwise the correction succeeds exactly when every compared time is present and every stop it moves stays within the calendar. A missing origin departure is a TypeError. When every stop could move a day without leaving the calendar, any failure is a TypeError (a missing time); on a route whose times are all present, any failure is an OverflowError. On success the origin is kept and each calling point and the destination is unchanged when it is at or after the origin's departure, and moved exactly one day later when it is before. With one location the origin and destination stay the same record. |
| Routes.InOrderUnchanged | brpy.py:190-200 | A route whose stops all come at or after the origin's departure is left exactly as split. |
| Routes.RolloverOrdersAfterOrigin | brpy.py:193-200 | When all booked times lie on the service date, after the correction no calling point departs, and the destination does not arrive, before the origin departs or a day or more after. |
| Routes.RemoveDayAsWritten | brpy.py:104-108 | `remove_day` as written raises OverflowError exactly when subtracting a day leaves the calendar, and otherwise returns the location unchanged. When it has any time, that is not the location moved a day back. |
| Routes.CorrectStopAsWritten | brpy.py:195-200 | One step as written: comparing with a missing time is a TypeError, and a stop before the origin's departure raises OverflowError exactly when moving it a day back leaves the calendar. A stop that succeeds is returned unchanged. |
| Routes.CheckCallingPointsAsWritten | brpy.py:195-197 | The loop as written over the calling points succeeds exactly when every step does, and then returns the calling points unchanged. A failure carries the error of the first stop that fails. |
| Routes.NormalizeAsWritten | brpy.py:195-200 | The correction as written raises in the same cases as the split and the comparisons: TypeError for a missing origin departure, and TypeError for any failure when no stop could leave the calendar by moving a day back. It raises OverflowError, on a route whose times are all present, when a stop it would move back leaves the calendar. When it succeeds it returns the plain split: no location changes. |
| Routes.AsWrittenLeavesStopBeforeOrigin | brpy.py:104-108 | For an origin at 23:50 and a stop booked for 00:10, the route as written keeps the stop before the origin, and subtracting a day would move it further back. The intended correction puts the stop and the destination on the next day. |
| Routes.AsWrittenOverflowsOnFirstDay | brpy.py:104-108 | The same route on 0001-01-01 raises OverflowError as written, though the subtraction's result is dropped. |
| Routes.IntendedSucceedsOnFirstDay | brpy.py:193-200 | On 0001-01-01 the intended correction of that route succeeds. |
| Urls.NewClient | brpy.py:14-24 | A client exists exactly when both credentials are given; otherwise construction fails. Its endpoint is the lower-cased endpoint with only surrounding whitespace cut, contains no upper-case letter, and has no whitespace at either end. |
| Urls.DefaultEndpointKept | brpy.py:14-24 | The default endpoint `v1` is kept as it is, so the client searches `searchv1` and looks services up under `servicev1`. |
| Urls.SearchUrlPlain | brpy.py:35-43 | Without a destination or time, the search path built by `Urls.SearchUrl` is the prefix, `search` + endpoint, the station and the formatted date. |
| Urls.SearchUrlTo | brpy.py:40-41 | A destination inserts `to` and the destination between the station and the date. |
| Urls.SearchUrlTime | brpy.py:45-47 | A time appends exactly one `/HHMM` segment to the path without it. |
| Urls.SearchUrlRoundTrip | brpy.py:35-49 | When the endpoint, station and destination contain no `/`, parsing a path built by `Urls.SearchUrl` gives back the search kind, station, destination, date and time it was built from, with today's date when none was given. |
| Urls.TrainUrlRoundTrip | brpy.py:121 | When the endpoint and uid contain no `/`, parsing a service path built by `Urls.TrainUrl` gives back the service kind, the uid and the date. |
| Trains.MakeTrain | brpy.py:112-128 | A new train has the given uid, the given date (today when none is given), no route and a false running flag. Its URL is always the service path `Urls.TrainUrl` joins from the client, uid and date, and it parses back to the service kind, uid and date when the endpoint and uid contain no `/`. |
| Trains.SameTrainIsIdentity | brpy.py:131-132 | Train equality (`Trains.SameTrain`) is reflexive, symmetric and transitive. |
| Trains.SameTrainIffSameUrl | brpy.py:121-132 | For one client, and an endpoint and uids without `/`, two new trains are equal exactly when they look up the same URL. |
| Trains.RealtimeActivatedByKey | brpy.py:207-210 | `running` (`Trains.RealtimeActivated`) tests for the key only: a `realtimeActivated` key at either end of the body sets it whatever its value, and a body without the key never does. |
| Trains.ExtractAll | brpy.py:148-188 | Location records are read in payload order, one location per record. The lookup fails exactly when some record fails, and with the error of the first failing record. |
| Trains.Populate | brpy.py:202-218 | A body that is not an object is a TypeError, and a missing `locations` key is a KeyError. A `locations` value that cannot be iterated is a TypeError. Otherwise the first failing record's error is the error, and then the correction's (IndexError for an empty list). On success the train keeps its identity and URL, `running` is whether `realtimeActivated` is present, and the route is the intended correction (`Routes.Normalize`) of the `locations` list, not the code as written. |
| Trains.PopulateEmpty | brpy.py:190 | An empty `locations` list is an IndexError. |
| Trains.PopulateKnown | brpy.py:202-218 | A body whose `locations` list reads and corrects populates the train with that route and sets `running` from the key. |
| Trains.PopulateReplaces | brpy.py:207-218 | Populating does not depend on an earlier population's route or running flag. |
| TrainExamples.NullLatenessSkipped | brpy.py:179-184 | A null `...Lateness` value does not stop the scan: the next non-null one is the delay. |
| TrainExamples.ThreeStopService | brpy.py:145-200 | A three-stop response without `realtimeActivated` yields a service that is not running, has one calling point, and arrives at the realtime 10:33 rather than the booked 10:30. |

## Left out

- HTTP: `test_auth`, the request and `raise_for_status` in `populate`, and `search` (brpy.py:26-30, 204-205, 235-254) are network I/O. `Populate` starts from the decoded response body, and `search` is not modelled.
- The clock: `datetime.today()` (brpy.py:36-37, 116-117) is a `today` parameter.
- `_train_search_url` (brpy.py:51-59): it raises UnboundLocalError whenever a date is given. The working service path of brpy.py:121 is modelled instead (`Urls.TrainUrl`).
- The cancellation loop (brpy.py:212-216): `'CANCELLED_CALL' or ...` is always true, so the loop only sets `cancelled = True` once there is a location. That flag is not modelled. Its errors (a missing or non-iterable `locations`) are the ones `Populate` reports.
- `search`'s loop over the undefined name `feed` (brpy.py:246) raises NameError inside I/O code.
- The `__repr__` and `__str__` methods (brpy.py:32-33, 94-102, 134-143) are presentation only.
- `stp_code` and `trailing_load` (brpy.py:126-127) are set to None and nothing changes them, so the model leaves them out.
- Partial state after an exception is not modelled. `running` is set before `update_locations` raises, and `origin`, `destination` and `calling_points` are assigned before a failing comparison. `Populate` returns a failure and no train.
- Python objects with identity are values here. The model shares origin and destination only in the one-location route, where Python uses the same object for both.
- `Train.date` when defaulted is a datetime with a time of day, which `__eq__` compares. The model keeps only the date.
- Urls.NewClient: takes the endpoint as a parameter; the Python default `endpoint='v1'` (brpy.py:14) is the constant `Urls.DefaultEndpoint`.
- Trains.Populate: uses the intended +1 day correction, so its routes are not the program's in three cases, each modelled by `Routes.NormalizeAsWritten`. (1) A stop before the origin's departure is moved to the next day, where the program leaves it on the service date. (2) On 0001-01-01 such a stop makes the program raise OverflowError, while `Populate` succeeds. (3) On 9999-12-31 such a stop makes `Populate` raise OverflowError, while the program's dropped subtraction stays in range and it succeeds.
- Trains.SameTrainIffSameUrl: trains carry dates. Python's `__eq__` compares whole datetimes, so two trains given different datetimes on one day share a URL but are unequal. That holds for explicit datetimes as well as for the defaulted `today()`.
- The client's `auth` tuple is kept as two strings and is used only by the HTTP calls.
- Text.Lower: lower-cases ASCII letters only; Python's `str.lower()` also maps other scripts.
- TimeParse.StrptimeHM: accepts ASCII digits only, where Python's `\d` also matches other Unicode decimal digits.
- TimeParse.PyInt: reads ASCII digits and an optional sign. It does not accept Unicode digits or `_` separators.
- Calendar.FormatDate: always pads the year to four digits. Some platforms' `%Y` does not pad years below 1000.
- A JSON object is modelled as its pairs in order. Duplicate keys are read by their first occurrence, not the last one as Python keeps. Numbers are integers, with no floats.
- A description that is not a string makes `.strip()` raise AttributeError. The model reports it as TypeError.

## Findings

| source | as written | input that shows it | evidently intended | confidence | as-written member | corrected member |
|---|---|---|---|---|---|---|
| brpy.py:104-108 | `remove_day` runs `loc_time -= ONE_DAY` on the loop variable. This rebinds a local name and no field of the location changes. Had it worked, it would have subtracted a day. | An origin booked to depart at 23:50 and a next stop booked for 00:10 on the same date. After `update_locations` the stop still departs 23 h 40 min before the origin. | Stops and the destination booked before the origin's departure are moved one day later (brpy.py:193-194). | not executed | Routes.AsWrittenLeavesStopBeforeOrigin | Routes.RolloverOrdersAfterOrigin |
| brpy.py:105-108 | The subtraction is evaluated for every present time, even though its result is dropped. | The same route with the origin dated 0001-01-01: `loc_time - ONE_DAY` for the 00:10 stop raises OverflowError and `update_locations` fails. | The stop is moved to 0001-01-02 and the lookup succeeds. | not executed | Routes.AsWrittenOverflowsOnFirstDay | Routes.IntendedSucceedsOnFirstDay |

=== FILE: calendar.dfy ===
/** Calendar dates and clock times as Python's `date` and `time` hold them, their
    `strftime` renderings, and the ordinal day count that anchors a datetime. */
module Calendar {
  import opened Wrappers
  import opened Text

  const SecondsPerDay := 86400

  predicate IsLeap(y: int) {
    y % 4 == 0 && (y % 100 != 0 || y % 400 == 0)
  }

  function DaysInMonth(y: int, m: int): int
    requires 1 <= m <= 12
  {
    if m == 2 then (if IsLeap(y) then 29 else 28)
    else if m == 4 || m == 6 || m == 9 || m == 11 then 30
    else 31
  }

  datatype Date = Date(year: int, month: int, day: int) {
    /** The range `datetime.date` accepts. */
    predicate Valid() {
      1 <= year <= 9999 && 1 <= month <= 12 && 1 <= day <= DaysInMonth(year, month)
    }
  }

  type ValidDate = d: Date | d.Valid() witness Date(1, 1, 1)

  datatype Clock = Clock(hour: int, minute: int) {
    predicate Valid() {
      0 <= hour <= 23 && 0 <= minute <= 59
    }
  }

  type ValidClock = c: Clock | c.Valid() witness Clock(0, 0)

  function DaysBeforeYear(y: int): int
    requires y >= 1
  {
    var p := y - 1;
    p * 365 + p / 4 - p / 100 + p / 400
  }

  function DaysBeforeMonth(y: int, m: int): int
    requires 1 <= m <= 12
  {
    if m == 1 then 0 else DaysBeforeMonth(y, m - 1) + DaysInMonth(y, m - 1)
  }

  /** `date.toordinal()`: 0001-01-01 is day 1 of the proleptic Gregorian calendar. */
  function Ordinal(d: ValidDate): int {
    DaysBeforeYear(d.year) + DaysBeforeMonth(d.year, d.month) + d.day
  }

  /** The start of day `d`, in seconds; every datetime of the model is counted from the same origin. */
  function Midnight(d: ValidDate): int {
    Ordinal(d) * SecondsPerDay
  }

  /** `date.max.toordinal()`, the ordinal of 9999-12-31. */
  const MaxOrdinal := 3652059

  /** The instants a Python `datetime` can hold, from 0001-01-01 00:00 to the last
      second of 9999-12-31: arithmetic whose result falls outside raises OverflowError. */
  predicate InDatetimeRange(t: int) {
    SecondsPerDay <= t < (MaxOrdinal + 1) * SecondsPerDay
  }

  function DaysInYear(y: int): int {
    if IsLeap(y) then 366 else 365
  }

  lemma DaysBeforeDecember(y: int)
    ensures DaysBeforeMonth(y, 12) + DaysInMonth(y, 12) == DaysInYear(y)
  {
    assert DaysBeforeMonth(y, 2) == 31;
    assert DaysBeforeMonth(y, 3) == 31 + DaysInMonth(y, 2);
    assert DaysBeforeMonth(y, 4) == 62 + DaysInMonth(y, 2);
    assert DaysBeforeMonth(y, 5) == 92 + DaysInMonth(y, 2);
    assert DaysBeforeMonth(y, 6) == 123 + DaysInMonth(y, 2);
    assert DaysBeforeMonth(y, 7) == 153 + DaysInMonth(y, 2);
    assert DaysBeforeMonth(y, 8) == 184 + DaysInMonth(y, 2);
    assert DaysBeforeMonth(y, 9) == 215 + DaysInMonth(y, 2);
    assert DaysBeforeMonth(y, 10) == 245 + DaysInMonth(y, 2);
    assert DaysBeforeMonth(y, 11) == 276 + DaysInMonth(y, 2);
  }

  lemma {:induction false} DaysBeforeMonthNonNegative(y: int, m: int)
    requires 1 <= m <= 12
    ensures 0 <= DaysBeforeMonth(y, m)
  {
    if m > 1 {
      DaysBeforeMonthNonNegative(y, m - 1);
    }
  }

  /** No day of month `m` lies past the end of the year. */
  lemma {:induction false} DaysThroughMonth(y: int, m: int)
    requires 1 <= m <= 12
    ensures 0 <= DaysBeforeMonth(y, m) && DaysBeforeMonth(y, m) + DaysInMonth(y, m) <= DaysInYear(y)
    decreases 12 - m
  {
    DaysBeforeMonthNonNegative(y, m);
    if m == 12 {
      DaysBeforeDecember(y);
    } else {
      DaysThroughMonth(y, m + 1);
    }
  }

  lemma YearLength(y: int)
    requires y >= 1
    ensures DaysBeforeYear(y + 1) == DaysBeforeYear(y) + DaysInYear(y)
  {
    assert y / 4 - (y - 1) / 4 == if y % 4 == 0 then 1 else 0;
    assert y / 100 - (y - 1) / 100 == if y % 100 == 0 then 1 else 0;
    assert y / 400 - (y - 1) / 400 == if y % 400 == 0 then 1 else 0;
    assert y % 400 == 0 ==> y % 100 == 0;
    assert y % 100 == 0 ==> y % 4 == 0;
  }

  lemma DaysBeforeYearMonotone(a: int, b: int)
    requires 1 <= a <= b
    ensures 0 <= DaysBeforeYear(a) <= DaysBeforeYear(b)
  {
  }

  /** Every valid date lies between 0001-01-01 (day 1) and 9999-12-31. */
  lemma OrdinalBounds(d: ValidDate)
    ensures 1 <= Ordinal(d) <= MaxOrdinal
  {
    DaysThroughMonth(d.year, d.month);
    YearLength(d.year);
    DaysBeforeYearMonotone(1, d.year);
    DaysBeforeYearMonotone(d.year + 1, 10000);
  }

  /** `datetime.combine(d, t)` for a time of day `t` seconds after midnight is always a
      datetime Python can hold. */
  lemma CombineInRange(d: ValidDate, t: int)
    requires 0 <= t < SecondsPerDay
    ensures InDatetimeRange(Midnight(d) + t)
  {
    OrdinalBounds(d);
  }

  /** `d.strftime("%Y/%m/%d")`. */
  function FormatDate(d: ValidDate): string {
    Join('/', [Pad4(d.year), Pad2(d.month), Pad2(d.day)])
  }

  /** `t.strftime("%H%M")`. */
  function FormatClock(c: ValidClock): string {
    Pad2(c.hour) + Pad2(c.minute)
  }

  /** Reads back the three fields of a `%Y/%m/%d` date. */
  function ParseDateFields(y: string, m: string, d: string): Option<ValidDate> {
    if |y| == 4 && |m| == 2 && |d| == 2 && AllDigits(y) && AllDigits(m) && AllDigits(d)
       && Date(DigitsValue(y), DigitsValue(m), DigitsValue(d)).Valid()
    then Some(Date(DigitsValue(y), DigitsValue(m), DigitsValue(d)))
    else None
  }

  /** Reads back a `%Y/%m/%d` date. */
  function ParseDate(s: string): Option<ValidDate> {
    var parts := Split(s, '/');
    if |parts| == 3 then ParseDateFields(parts[0], parts[1], parts[2]) else None
  }

  lemma PadsHaveNoSlash(d: ValidDate)
    ensures '/' !in Pad4(d.year) && '/' !in Pad2(d.month) && '/' !in Pad2(d.day)
  {
    var y, m, dd := Pad4(d.year), Pad2(d.month), Pad2(d.day);
    assert forall i :: 0 <= i < |y| ==> y[i] != '/';
    assert forall i :: 0 <= i < |m| ==> m[i] != '/';
    assert forall i :: 0 <= i < |dd| ==> dd[i] != '/';
  }

  /** The date in a URL reads back as the same year, month and day. */
  lemma ParseFormatDate(d: ValidDate)
    ensures ParseDate(FormatDate(d)) == Some(d)
  {
    PadsHaveNoSlash(d);
    SplitJoin('/', [Pad4(d.year), Pad2(d.month), Pad2(d.day)]);
  }
}

=== FILE: locations.dfy ===
/** One calling point of a service (`rtt.Location`): how it is read from a location
    record of the payload, its effective arrival and departure, and moving it by a day. */
module Locations {
  import opened Wrappers
  import opened Errors
  import opened Text
  import opened Calendar
  import opened TimeParse
  import opened Payload

  const OneDay := SecondsPerDay

  /** Times are datetimes in seconds (see `Calendar.Midnight`); `None` is an absent time.
      `tiploc`, `crs` and `delay` hold whatever JSON value the record carried. */
  datatype Location = Location(
    name: string,
    tiploc: Json,
    crs: Json,
    wttArr: Option<int>,
    wttDep: Option<int>,
    realArr: Option<int>,
    realDep: Option<int>,
    delay: Json)

  /** The `arr` property: the realtime arrival when there is one, else the booked one. */
  function Arr(loc: Location): (r: Option<int>)
    ensures r.None? <==> loc.realArr.None? && loc.wttArr.None?
    ensures loc.realArr.Some? ==> r == loc.realArr
    ensures loc.realArr.None? ==> r == loc.wttArr
  {
    if loc.realArr.Some? then loc.realArr else loc.wttArr
  }

  /** The `dep` property: the realtime departure when there is one, else the booked one. */
  function Dep(loc: Location): (r: Option<int>)
    ensures r.None? <==> loc.realDep.None? && loc.wttDep.None?
    ensures loc.realDep.Some? ==> r == loc.realDep
    ensures loc.realDep.None? ==> r == loc.wttDep
  {
    if loc.realDep.Some? then loc.realDep else loc.wttDep
  }

  /** The effective times are views recomputed from the stored fields: a new realtime
      value shows through at once, and clearing it falls back to the timetable. */
  lemma EffectiveTimesAreViews(loc: Location, t: int)
    ensures Arr(loc.(realArr := Some(t))) == Some(t)
    ensures Arr(loc.(realArr := None)) == loc.wttArr
    ensures Dep(loc.(realDep := Some(t))) == Some(t)
    ensures Dep(loc.(realDep := None)) == loc.wttDep
    ensures Arr(loc.(wttArr := Some(t))) == (if loc.realArr.Some? then loc.realArr else Some(t))
    ensures Dep(loc.(wttDep := Some(t))) == (if loc.realDep.Some? then loc.realDep else Some(t))
  {
  }

  const BookedArrival := "wttBookedArrival"
  const BookedDeparture := "wttBookedDeparture"
  const BookedPass := "wttBookedPass"
  const RealtimeArrival := "realtimeArrival"
  const RealtimeDeparture := "realtimeDeparture"
  const RealtimePass := "realtimePass"

  /** `place[key]` is a string that `_location_datetime` turns into the datetime `t`. */
  predicate TimeFrom(date: ValidDate, place: Fields, key: string, t: int) {
    var v := Get(place, key);
    v.Some? && v.value.Str? && LocationDatetime(date, v.value.s) == Success(t)
  }

  /** One time field: absent when the key is absent, else the parsed datetime. A value
      that is not a string cannot be sliced (TypeError); a bad string is a ValueError,
      and seconds that carry the time outside the calendar an OverflowError. */
  function TimeField(date: ValidDate, place: Fields, key: string): (r: Result<Option<int>, Error>)
    ensures r.Success? ==> (r.value.Some? <==> HasKey(place, key))
    ensures r.Success? && r.value.Some? ==> TimeFrom(date, place, key, r.value.value)
    ensures !HasKey(place, key) ==> r.Success?
    ensures HasKey(place, key) && !Get(place, key).value.Str? ==> r == Failure(TypeError)
    ensures HasKey(place, key) && Get(place, key).value.Str? ==> (r.Success? <==> LocationDatetime(date, Get(place, key).value.s).Success?)
    ensures HasKey(place, key) && Get(place, key).value.Str? && r.Failure? ==> r.error == LocationDatetime(date, Get(place, key).value.s).error
  {
    var v := Get(place, key);
    if v.None? then Success(None)
    else if !v.value.Str? then Failure(TypeError)
    else
      var t :- LocationDatetime(date, v.value.s);
      Success(Some(t))
  }

  /** `key` names a lateness field and `value` is not null. */
  predicate IsLatenessPair(p: (string, Json)) {
    Contains(p.0, "Lateness") && p.1 != Null
  }

  /** Pair `i` is a lateness pair and none before it is. */
  predicate FirstLatenessAt(place: Fields, i: int) {
    0 <= i < |place| && IsLatenessPair(place[i]) && forall j :: 0 <= j < i ==> !IsLatenessPair(place[j])
  }

  /** The delay of a location record: the value of the first pair, in payload order,
      whose key contains "Lateness" and whose value is not null; 0 when there is none. */
  function FirstLateness(place: Fields): (r: Json)
    ensures (forall i :: 0 <= i < |place| ==> !IsLatenessPair(place[i])) ==> r == Num(0)
    ensures forall i :: FirstLatenessAt(place, i) ==> r == place[i].1
  {
    if |place| == 0 then Num(0)
    else if IsLatenessPair(place[0]) then place[0].1
    else
      var r := FirstLateness(place[1..]);
      assert forall i :: 1 <= i < |place| ==> place[1..][i - 1] == place[i];
      r
  }

  /** The scan in `update_locations` as written: every key that does not match resets
      the delay to 0 and the first match breaks out. A record with no keys at all would
      leave `delay` unbound, reported here as `None`. */
  method DelayScan(place: Fields) returns (delay: Option<Json>)
    ensures delay.None? <==> |place| == 0
    ensures |place| > 0 ==> delay == Some(FirstLateness(place))
  {
    delay := None;
    var i := 0;
    while i < |place|
      invariant 0 <= i <= |place|
      invariant forall j :: 0 <= j < i ==> !IsLatenessPair(place[j])
      invariant delay.None? <==> i == 0
      invariant i > 0 ==> delay == Some(Num(0))
    {
      var (key, value) := place[i];
      if Contains(key, "Lateness") && value != Null {
        delay := Some(value);
        return;
      } else {
        delay := Some(Num(0));
      }
      i := i + 1;
    }
  }

  /** The departure time read from `key`, or from `fallback` (the passing time)
      when the record has no `key`. */
  function FieldOr(date: ValidDate, place: Fields, key: string, fallback: string): Result<Option<int>, Error> {
    if HasKey(place, key) then TimeField(date, place, key) else TimeField(date, place, fallback)
  }

  /** The location a record of the `locations` list describes (`update_locations`,
      one iteration). The name is stripped by the `Location` constructor, after the
      time fields have been parsed. */
  function Extract(date: ValidDate, place: Fields): (r: Result<Location, Error>)
    ensures !HasKey(place, "description") ==> r == Failure(KeyError("description"))
    ensures HasKey(place, "description") && !HasKey(place, "tiploc") ==> r == Failure(KeyError("tiploc"))
    ensures r.Success? ==> Get(place, "description").Some? && Get(place, "description").value.Str?
    ensures r.Success? ==> r.value.name == Strip(Get(place, "description").value.s)
    ensures r.Success? ==> Get(place, "tiploc") == Some(r.value.tiploc)
    ensures r.Success? ==> r.value.crs == (if HasKey(place, "crs") then Get(place, "crs").value else Null)
    ensures r.Success? ==> (r.value.wttArr.Some? <==> HasKey(place, BookedArrival))
    ensures r.Success? && r.value.wttArr.Some? ==> TimeFrom(date, place, BookedArrival, r.value.wttArr.value)
    ensures r.Success? ==> (r.value.wttDep.Some? <==> HasKey(place, BookedDeparture) || HasKey(place, BookedPass))
    ensures r.Success? && HasKey(place, BookedDeparture) ==> TimeFrom(date, place, BookedDeparture, r.value.wttDep.value)
    ensures r.Success? && !HasKey(place, BookedDeparture) && HasKey(place, BookedPass) ==> TimeFrom(date, place, BookedPass, r.value.wttDep.value)
    ensures r.Success? ==> (r.value.realArr.Some? <==> HasKey(place, RealtimeArrival))
    ensures r.Success? && r.value.realArr.Some? ==> TimeFrom(date, place, RealtimeArrival, r.value.realArr.value)
    ensures r.Success? ==> (r.value.realDep.Some? <==> HasKey(place, RealtimeDeparture) || HasKey(place, RealtimePass))
    ensures r.Success? && HasKey(place, RealtimeDeparture) ==> TimeFrom(date, place, RealtimeDeparture, r.value.realDep.value)
    ensures r.Success? && !HasKey(place, RealtimeDeparture) && HasKey(place, RealtimePass) ==> TimeFrom(date, place, RealtimePass, r.value.realDep.value)
    ensures r.Success? ==> r.value.delay == FirstLateness(place)
    ensures HasKey(place, "description") && HasKey(place, "tiploc") ==>
      var wa := TimeField(date, place, BookedArrival);
      var wd := FieldOr(date, place, BookedDeparture, BookedPass);
      var ra := TimeField(date, place, RealtimeArrival);
      var rd := FieldOr(date, place, RealtimeDeparture, RealtimePass);
      && (wa.Failure? ==> r == Failure(wa.error))
      && (wa.Success? && wd.Failure? ==> r == Failure(wd.error))
      && (wa.Success? && wd.Success? && ra.Failure? ==> r == Failure(ra.error))
      && (wa.Success? && wd.Success? && ra.Success? && rd.Failure? ==> r == Failure(rd.error))
      && (wa.Success? && wd.Success? && ra.Success? && rd.Success? ==>
            (r.Failure? <==> !Get(place, "description").value.Str?) && (r.Failure? ==> r.error == TypeError))
  {
    var description :- Require(place, "description");
    var tiploc :- Require(place, "tiploc");
    var crs := Get(place, "crs").GetOr(Null);
    var wttArr :- TimeField(date, place, BookedArrival);
    var wttDep :- FieldOr(date, place, BookedDeparture, BookedPass);
    var realArr :- TimeField(date, place, RealtimeArrival);
    var realDep :- FieldOr(date, place, RealtimeDeparture, RealtimePass);
    var delay := FirstLateness(place);
    if !description.Str? then Failure(TypeError)
    else Success(Location(Strip(description.s), tiploc, crs, wttArr, wttDep, realArr, realDep, delay))
  }

  /** A record whose description is a string and whose time fields all read is the
      location they describe; the general success case of `Extract`. */
  lemma ExtractKnown(date: ValidDate, place: Fields, name: string, loc: Location)
    requires Get(place, "description") == Some(Str(name)) && loc.name == Strip(name)
    requires Get(place, "tiploc") == Some(loc.tiploc) && loc.crs == Get(place, "crs").GetOr(Null)
    requires TimeField(date, place, BookedArrival) == Success(loc.wttArr)
    requires FieldOr(date, place, BookedDeparture, BookedPass) == Success(loc.wttDep)
    requires TimeField(date, place, RealtimeArrival) == Success(loc.realArr)
    requires FieldOr(date, place, RealtimeDeparture, RealtimePass) == Success(loc.realDep)
    requires loc.delay == FirstLateness(place)
    ensures Extract(date, place) == Success(loc)
  {
  }

  function ShiftTime(t: Option<int>, delta: int): Option<int> {
    if t.Some? then Some(t.value + delta) else None
  }

  /** `t'` is `t` moved by `delta`: both absent, or both present `delta` apart. */
  predicate MovedBy(t: Option<int>, t': Option<int>, delta: int) {
    (t.None? && t'.None?) || (t.Some? && t'.Some? && t'.value == t.value + delta)
  }

  /** The location with every present time moved by `delta` seconds; this is what
      `remove_day` is meant to do to the four time fields. */
  function ShiftDay(loc: Location, delta: int): (r: Location)
    ensures r.name == loc.name && r.tiploc == loc.tiploc && r.crs == loc.crs && r.delay == loc.delay
    ensures MovedBy(loc.wttArr, r.wttArr, delta) && MovedBy(loc.wttDep, r.wttDep, delta)
    ensures MovedBy(loc.realArr, r.realArr, delta) && MovedBy(loc.realDep, r.realDep, delta)
  {
    loc.(wttArr := ShiftTime(loc.wttArr, delta), wttDep := ShiftTime(loc.wttDep, delta),
         realArr := ShiftTime(loc.realArr, delta), realDep := ShiftTime(loc.realDep, delta))
  }

  /** Every present time of `loc`, moved by `delta`, is still a datetime Python can hold. */
  predicate ShiftInRange(loc: Location, delta: int) {
    && (loc.wttArr.Some? ==> InDatetimeRange(loc.wttArr.value + delta))
    && (loc.wttDep.Some? ==> InDatetimeRange(loc.wttDep.value + delta))
    && (loc.realArr.Some? ==> InDatetimeRange(loc.realArr.value + delta))
    && (loc.realDep.Some? ==> InDatetimeRange(loc.realDep.value + delta))
  }

  /** Shifting back undoes a shift, and the effective times move with the stored ones. */
  lemma ShiftDayInverse(loc: Location, delta: int)
    ensures ShiftDay(ShiftDay(loc, delta), -delta) == loc
    ensures MovedBy(Arr(loc), Arr(ShiftDay(loc, delta)), delta)
    ensures MovedBy(Dep(loc), Dep(ShiftDay(loc, delta)), delta)
  {
  }
}

=== FILE: payload.dfy ===
/** A decoded JSON document: objects are ordered key/value sequences, in payload order,
    with one pair per key, as a Python `dict` from `json.loads` holds them. */
module Payload {
  import opened Wrappers
  import opened Errors

  datatype Json =
    | Null
    | Bool(b: bool)
    | Num(n: int)
    | Str(s: string)
    | List(items: seq<Json>)
    | Dict(fields: seq<(string, Json)>)

  type Fields = seq<(string, Json)>

  /** `key in d`. */
  predicate HasKey(fields: Fields, key: string) {
    exists i :: 0 <= i < |fields| && fields[i].0 == key
  }

  /** `d.get(key)`: the value stored under `key`, if any. */
  function Get(fields: Fields, key: string): (r: Option<Json>)
    ensures r.Some? <==> HasKey(fields, key)
    ensures r.Some? ==> exists i :: 0 <= i < |fields| && fields[i] == (key, r.value)
  {
    if |fields| == 0 then None
    else if fields[0].0 == key then Some(fields[0].1)
    else
      var r := Get(fields[1..], key);
      assert HasKey(fields[1..], key) ==> HasKey(fields, key);
      assert HasKey(fields, key) ==> HasKey(fields[1..], key) by {
        if HasKey(fields, key) {
          var i :| 0 <= i < |fields| && fields[i].0 == key;
          assert fields[1..][i - 1].0 == key;
        }
      }
      r
  }

  /** `d[key]`: the stored value, or KeyError. */
  function Require(fields: Fields, key: string): (r: Result<Json, Error>)
    ensures r.Success? <==> HasKey(fields, key)
    ensures r.Failure? ==> r.error == KeyError(key)
    ensures r.Success? ==> Get(fields, key) == Some(r.value)
  {
    var v := Get(fields, key);
    if v.None? then Failure(KeyError(key)) else Success(v.value)
  }

  /** `for x in v`: a list yields its items, a dict its keys, a string its characters;
      null, numbers and booleans are not iterable. */
  function Iterate(v: Json): (r: Result<seq<Json>, Error>)
    ensures v.List? ==> r == Success(v.items)
    ensures r.Failure? <==> (v.Null? || v.Bool? || v.Num?)
    ensures r.Failure? ==> r.error == TypeError
    ensures r.Success? && v.Dict? ==> |r.value| == |v.fields| && forall i :: 0 <= i < |v.fields| ==> r.value[i] == Str(v.fields[i].0)
    ensures r.Success? && v.Str? ==> |r.value| == |v.s| && forall i :: 0 <= i < |v.s| ==> r.value[i] == Str([v.s[i]])
  {
    match v
    case List(items) => Success(items)
    case Dict(fields) => Success(seq(|fields|, i requires 0 <= i < |fields| => Str(fields[i].0)))
    case Str(s) => Success(seq(|s|, i requires 0 <= i < |s| => Str([s[i]])))
    case _ => Failure(TypeError)
  }
}

=== FILE: routes.dfy ===
/** The route of a service: splitting the location list into origin, calling points
    and destination, and correcting stops that fall after midnight (`update_locations`,
    brpy.py lines 190-200).

    Three defects in the midnight correction in `update_locations` are recorded here.
    1. `remove_day` runs `loc_time -= ONE_DAY` on the loop variable of a list of the
       four times; datetimes are immutable, so this rebinds the local name and no
       field of the location changes. As written the correction does nothing
       (`NormalizeAsWritten`).
    2. Had it taken effect, it would subtract a day, moving a stop that is already
       before the origin's departure one further day back. The comment above the loop
       says the aim is to put such stops on the right day: that is one day LATER.
    3. The subtraction is still evaluated, so on a stop dated 0001-01-01 it raises
       OverflowError although its result is dropped (`AsWrittenOverflowsOnFirstDay`).
    `Normalize` is the intended correction (+1 day), and the rest of the model uses it;
    it raises OverflowError when the day it adds would pass 9999-12-31. */
module Routes {
  import opened Wrappers
  import opened Errors
  import opened Calendar
  import opened Locations

  datatype Route = Route(origin: Location, callingPoints: seq<Location>, destination: Location) {
    /** The locations in payload order. */
    function All(): seq<Location> {
      [origin] + callingPoints + [destination]
    }
  }

  /** `origin = locations[0]`, `destination = locations[-1]`,
      `calling_points = locations[1:-1]`. */
  function SplitRoute(locs: seq<Location>): (r: Result<Route, Error>)
    ensures r.Failure? <==> |locs| == 0
    ensures r.Failure? ==> r.error == IndexError
    ensures r.Success? ==> r.value.origin == locs[0] && r.value.destination == locs[|locs| - 1]
    ensures r.Success? && |locs| >= 2 ==> r.value.All() == locs
    ensures r.Success? && |locs| == 1 ==> r.value == Route(locs[0], [], locs[0])
  {
    if |locs| == 0 then Failure(IndexError)
    else
      var n := |locs|;
      var r := Route(locs[0], if n >= 2 then locs[1..n - 1] else [], locs[n - 1]);
      assert n >= 2 ==> r.All() == locs;
      Success(r)
  }

  /** Every comparison the correction makes has a datetime on both sides: comparing
      with `None` raises TypeError. The destination check always runs, so the origin
      needs a booked departure and the destination a booked arrival. */
  predicate Comparable(route: Route) {
    && route.origin.wttDep.Some?
    && route.destination.wttArr.Some?
    && forall i :: 0 <= i < |route.callingPoints| ==> route.callingPoints[i].wttDep.Some?
  }

  /** Every stop the correction moves (a calling point booked to leave, or the
      destination booked to arrive, before the origin departs) stays within the
      calendar when its times are moved by `delta`. */
  predicate MovesInRange(route: Route, delta: int)
    requires Comparable(route)
  {
    var od := route.origin.wttDep.value;
    && (forall i :: 0 <= i < |route.callingPoints| && route.callingPoints[i].wttDep.value < od ==>
          ShiftInRange(route.callingPoints[i], delta))
    && (route.destination.wttArr.value < od ==> ShiftInRange(route.destination, delta))
  }

  /** One step of the correction, `if t < od: loc.remove_day()`, with `remove_day`
      moving the stop a day later as intended. */
  function CorrectStop(loc: Location, t: Option<int>, od: Option<int>): (r: Result<Location, Error>)
    ensures r.Success? <==> t.Some? && od.Some? && (t.value < od.value ==> ShiftInRange(loc, OneDay))
    ensures r.Failure? ==> r.error == if t.Some? && od.Some? then OverflowError else TypeError
    ensures r.Success? ==> r.value == if t.value < od.value then ShiftDay(loc, OneDay) else loc
  {
    if t.None? || od.None? then Failure(TypeError)
    else if t.value < od.value then
      if ShiftInRange(loc, OneDay) then Success(ShiftDay(loc, OneDay)) else Failure(OverflowError)
    else Success(loc)
  }

  /** The loop over the calling points, which stops at the first one that raises. */
  function CorrectCallingPoints(cps: seq<Location>, od: Option<int>): (r: Result<seq<Location>, Error>)
    ensures r.Success? <==> forall i :: 0 <= i < |cps| ==> CorrectStop(cps[i], cps[i].wttDep, od).Success?
    ensures r.Success? ==> |r.value| == |cps|
    ensures r.Success? ==> forall i :: 0 <= i < |cps| ==> CorrectStop(cps[i], cps[i].wttDep, od) == Success(r.value[i])
    ensures r.Failure? && od.Some? && (forall i :: 0 <= i < |cps| ==> cps[i].wttDep.Some?) ==> r.error == OverflowError
    ensures r.Failure? ==> exists i :: 0 <= i < |cps| && CorrectStop(cps[i], cps[i].wttDep, od) == Failure(r.error)
                                       && forall j :: 0 <= j < i ==> CorrectStop(cps[j], cps[j].wttDep, od).Success?
  {
    var f := (cp: Location) => CorrectStop(cp, cp.wttDep, od);
    var moved := MapAll(f, cps);
    if moved.Failure? then
      var i :| FirstFailureAt(f, cps, i) && f(cps[i]) == Failure(moved.error);
      moved
    else moved
  }

  /** The route with post-midnight stops moved to the next day. With a single location
      the origin and the destination are the same object, so moving the destination
      moves the origin with it. */
  function Normalize(locs: seq<Location>): (r: Result<Route, Error>)
    ensures |locs| == 0 ==> r == Failure(IndexError)
    ensures |locs| > 0 ==> (r.Success? <==> Comparable(SplitRoute(locs).value) && MovesInRange(SplitRoute(locs).value, OneDay))
    ensures |locs| > 0 && r.Failure? ==> r.error == TypeError || r.error == OverflowError
    ensures |locs| > 0 && Comparable(SplitRoute(locs).value) && r.Failure? ==> r.error == OverflowError
    ensures |locs| > 0 && locs[0].wttDep.None? ==> r == Failure(TypeError)
    ensures |locs| > 0 && r.Failure? && (forall i :: 0 <= i < |locs| ==> ShiftInRange(locs[i], OneDay)) ==> r.error == TypeError
    ensures r.Success? ==> |r.value.callingPoints| == if |locs| >= 2 then |locs| - 2 else 0
    ensures r.Success? && |locs| >= 2 ==> r.value.origin == locs[0]
    ensures r.Success? && |locs| == 1 ==> r.value.origin == r.value.destination
    ensures r.Success? ==> var od := locs[0].wttDep.value;
      forall i :: 0 <= i < |r.value.callingPoints| ==>
        && (locs[i + 1].wttDep.value >= od ==> r.value.callingPoints[i] == locs[i + 1])
        && (locs[i + 1].wttDep.value < od ==> r.value.callingPoints[i] == ShiftDay(locs[i + 1], OneDay))
    ensures r.Success? ==> var od := locs[0].wttDep.value; var last := locs[|locs| - 1];
      && (last.wttArr.value >= od ==> r.value.destination == last)
      && (last.wttArr.value < od ==> r.value.destination == ShiftDay(last, OneDay))
  {
    var route :- SplitRoute(locs);
    var od := route.origin.wttDep;
    var cps :- CorrectCallingPoints(route.callingPoints, od);
    assert forall i :: 0 <= i < |cps| ==> route.callingPoints[i] == locs[i + 1];
    var dest :- CorrectStop(route.destination, route.destination.wttArr, od);
    Success(Route(if |locs| == 1 then dest else route.origin, cps, dest))
  }

  /** A route already in order, with no stop before the origin's departure, is left
      exactly as split. */
  lemma InOrderUnchanged(locs: seq<Location>)
    requires |locs| >= 2 && Comparable(SplitRoute(locs).value)
    requires forall i :: 1 <= i < |locs| - 1 ==> locs[i].wttDep.value >= locs[0].wttDep.value
    requires locs[|locs| - 1].wttArr.value >= locs[0].wttDep.value
    ensures Normalize(locs) == SplitRoute(locs)
  {
    var route := SplitRoute(locs).value;
    assert forall i :: 0 <= i < |route.callingPoints| ==> route.callingPoints[i] == locs[i + 1];
    assert MovesInRange(route, OneDay);
    var r := Normalize(locs).value;
    assert r.callingPoints == route.callingPoints;
  }

  /** Time `t`, when present, lies on the service date that starts at `midnight`. */
  predicate OnServiceDate(t: Option<int>, midnight: int) {
    t.Some? ==> midnight <= t.value < midnight + OneDay
  }

  /** Every booked time of the list lies on the service date, as `_location_datetime`
      produces them from four-character times. */
  predicate AllOnServiceDate(locs: seq<Location>, midnight: int) {
    forall i :: 0 <= i < |locs| ==> OnServiceDate(locs[i].wttArr, midnight) && OnServiceDate(locs[i].wttDep, midnight)
  }

  /** When every booked time lies on the service date, after the correction no calling
      point leaves, and the destination is not reached, before the origin departs, nor
      a day or more after. */
  lemma RolloverOrdersAfterOrigin(locs: seq<Location>, midnight: int)
    requires AllOnServiceDate(locs, midnight) && Normalize(locs).Success?
    ensures var r := Normalize(locs).value; var od := locs[0].wttDep.value;
      forall i :: 0 <= i < |r.callingPoints| ==> od <= r.callingPoints[i].wttDep.value < od + OneDay
    ensures var r := Normalize(locs).value; var od := locs[0].wttDep.value;
      od <= r.destination.wttArr.value < od + OneDay
  {
    var r := Normalize(locs).value;
    var od := locs[0].wttDep.value;
    assert OnServiceDate(locs[0].wttDep, midnight);
    forall i | 0 <= i < |r.callingPoints|
      ensures od <= r.callingPoints[i].wttDep.value < od + OneDay
    {
      assert OnServiceDate(locs[i + 1].wttDep, midnight);
    }
    assert OnServiceDate(locs[|locs| - 1].wttArr, midnight);
  }

  /** `remove_day` as written: each present time is moved back a day into the loop
      variable, which is then dropped. The subtraction still raises OverflowError for a
      time on 0001-01-01, but no field of the location changes, so the result is never
      the location with its times moved. */
  function RemoveDayAsWritten(loc: Location): (r: Result<Location, Error>)
    ensures r.Success? <==> ShiftInRange(loc, -OneDay)
    ensures r.Failure? ==> r.error == OverflowError
    ensures r.Success? ==> r.value == loc
    ensures r.Success? && (loc.wttArr.Some? || loc.wttDep.Some? || loc.realArr.Some? || loc.realDep.Some?) ==>
      r.value != ShiftDay(loc, -OneDay)
  {
    if ShiftInRange(loc, -OneDay) then Success(loc) else Failure(OverflowError)
  }

  /** One step of the correction as written: `if t < od: loc.remove_day()`. */
  function CorrectStopAsWritten(loc: Location, t: Option<int>, od: Option<int>): (r: Result<Location, Error>)
    ensures r.Success? <==> t.Some? && od.Some? && (t.value < od.value ==> ShiftInRange(loc, -OneDay))
    ensures r.Failure? ==> r.error == if t.Some? && od.Some? then OverflowError else TypeError
    ensures r.Success? ==> r.value == loc
  {
    if t.None? || od.None? then Failure(TypeError)
    else if t.value < od.value then RemoveDayAsWritten(loc)
    else Success(loc)
  }

  /** The loop over the calling points as written. */
  function CheckCallingPointsAsWritten(cps: seq<Location>, od: Option<int>): (r: Result<seq<Location>, Error>)
    ensures r.Success? <==> forall i :: 0 <= i < |cps| ==> CorrectStopAsWritten(cps[i], cps[i].wttDep, od).Success?
    ensures r.Success? ==> r.value == cps
    ensures r.Failure? && od.Some? && (forall i :: 0 <= i < |cps| ==> cps[i].wttDep.Some?) ==> r.error == OverflowError
    ensures r.Failure? ==> exists i :: 0 <= i < |cps| && CorrectStopAsWritten(cps[i], cps[i].wttDep, od) == Failure(r.error)
                                       && forall j :: 0 <= j < i ==> CorrectStopAsWritten(cps[j], cps[j].wttDep, od).Success?
  {
    var f := (cp: Location) => CorrectStopAsWritten(cp, cp.wttDep, od);
    var checked := MapAll(f, cps);
    if checked.Failure? then
      var i :| FirstFailureAt(f, cps, i) && f(cps[i]) == Failure(checked.error);
      checked
    else
      assert checked.value == cps;
      checked
  }

  /** The correction as written: the same comparisons and the same errors, but
      `remove_day` leaves every location as it was, so the route is the plain split. */
  function NormalizeAsWritten(locs: seq<Location>): (r: Result<Route, Error>)
    ensures |locs| == 0 ==> r == Failure(IndexError)
    ensures |locs| > 0 ==> (r.Success? <==> Comparable(SplitRoute(locs).value) && MovesInRange(SplitRoute(locs).value, -OneDay))
    ensures |locs| > 0 && Comparable(SplitRoute(locs).value) && r.Failure? ==> r.error == OverflowError
    ensures |locs| > 0 && locs[0].wttDep.None? ==> r == Failure(TypeError)
    ensures |locs| > 0 && r.Failure? && (forall i :: 0 <= i < |locs| ==> ShiftInRange(locs[i], -OneDay)) ==> r.error == TypeError
    ensures r.Success? ==> r == SplitRoute(locs)
  {
    var route :- SplitRoute(locs);
    var od := route.origin.wttDep;
    var _ :- CheckCallingPointsAsWritten(route.callingPoints, od);
    var _ :- CorrectStopAsWritten(route.destination, route.destination.wttArr, od);
    Success(route)
  }

  /** A stop with only a booked departure, for the examples below. */
  function BookedStop(name: string, dep: Option<int>, arr: Option<int>): Location {
    Location(name, Payload.Str(name), Payload.Null, arr, dep, None, None, Payload.Num(0))
  }

  /** An overnight service on the day that starts at `midnight`: the origin leaves at
      23:50, and the next stop is booked for 00:10 and the destination for 00:30 of the
      same calendar date. */
  function OvernightStops(midnight: int): seq<Location> {
    [BookedStop("A", Some(midnight + 23 * 3600 + 50 * 60), None),
     BookedStop("B", Some(midnight + 10 * 60), Some(midnight + 9 * 60)),
     BookedStop("C", None, Some(midnight + 30 * 60))]
  }

  lemma OvernightSplit(midnight: int)
    ensures var locs := OvernightStops(midnight);
      SplitRoute(locs) == Success(Route(locs[0], [locs[1]], locs[2]))
  {
    var locs := OvernightStops(midnight);
    assert locs[1..2] == [locs[1]];
  }

  /** As written the stop stays 23 h 40 min before the origin, and subtracting a day
      would put it a day earlier still; the intended correction puts the stop and the
      destination on the next day. Both ends of the calendar are left out here: see
      `AsWrittenOverflowsOnFirstDay`. */
  lemma AsWrittenLeavesStopBeforeOrigin(midnight: int)
    requires 2 * OneDay <= midnight <= (MaxOrdinal - 1) * OneDay
    ensures var locs := OvernightStops(midnight);
      && NormalizeAsWritten(locs).Success?
      && NormalizeAsWritten(locs).value.callingPoints[0].wttDep.value < locs[0].wttDep.value
      && ShiftDay(locs[1], -OneDay).wttDep.value < locs[1].wttDep.value
      && Normalize(locs).Success?
      && Normalize(locs).value.callingPoints[0].wttDep == Some(midnight + OneDay + 10 * 60)
      && Normalize(locs).value.destination.wttArr == Some(midnight + OneDay + 30 * 60)
  {
    OvernightSplit(midnight);
  }

  /** On 0001-01-01 the overnight route can be moved a day later but not a day earlier. */
  lemma FirstDayMoves()
    ensures var route := Route(OvernightStops(OneDay)[0], [OvernightStops(OneDay)[1]], OvernightStops(OneDay)[2]);
      && Comparable(route) && !MovesInRange(route, -OneDay) && MovesInRange(route, OneDay)
  {
    var locs := OvernightStops(OneDay);
    var route := Route(locs[0], [locs[1]], locs[2]);
    assert !ShiftInRange(locs[1], -OneDay);
    assert ShiftInRange(locs[1], OneDay) && ShiftInRange(locs[2], OneDay);
  }

  /** On 0001-01-01 the subtraction as written raises OverflowError even though its
      result is dropped. */
  lemma AsWrittenOverflowsOnFirstDay()
    ensures NormalizeAsWritten(OvernightStops(Midnight(Date(1, 1, 1)))) == Failure(OverflowError)
  {
    assert Midnight(Date(1, 1, 1)) == OneDay;
    OvernightSplit(OneDay);
    FirstDayMoves();
  }

  /** On the same day the intended correction succeeds. */
  lemma IntendedSucceedsOnFirstDay()
    ensures Normalize(OvernightStops(Midnight(Date(1, 1, 1)))).Success?
  {
    assert Midnight(Date(1, 1, 1)) == OneDay;
    OvernightSplit(OneDay);
    FirstDayMoves();
  }
}

=== FILE: text.dfy ===
/** String helpers with Python's meaning: whitespace stripping, ASCII lower-casing,
    decimal digits, zero padding, and splitting or joining on a separator. */
module Text {

  /** The characters Python's `str.strip()` treats as whitespace (`str.isspace()`). */
  predicate IsSpace(c: char) {
    var n := c as int;
    (0x09 <= n <= 0x0D) || (0x1C <= n <= 0x20) || n == 0x85 || n == 0xA0 || n == 0x1680
    || (0x2000 <= n <= 0x200A) || n == 0x2028 || n == 0x2029 || n == 0x202F
    || n == 0x205F || n == 0x3000
  }

  function StripLeft(s: string): (r: string)
    ensures |r| <= |s| && r == s[|s| - |r|..]
    ensures forall k :: 0 <= k < |s| - |r| ==> IsSpace(s[k])
    ensures r == [] || !IsSpace(r[0])
  {
    if |s| > 0 && IsSpace(s[0]) then StripLeft(s[1..]) else s
  }

  function StripRight(s: string): (r: string)
    ensures |r| <= |s| && r == s[..|r|]
    ensures forall k :: |r| <= k < |s| ==> IsSpace(s[k])
    ensures r == [] || !IsSpace(r[|r| - 1])
  {
    if |s| > 0 && IsSpace(s[|s| - 1]) then StripRight(s[..|s| - 1]) else s
  }

  /** `r` is `s` with the `i` characters before it and everything after it whitespace. */
  predicate Trims(s: string, i: int, r: string) {
    && 0 <= i <= |s| - |r|
    && r == s[i..i + |r|]
    && (forall k :: 0 <= k < i ==> IsSpace(s[k]))
    && (forall k :: i + |r| <= k < |s| ==> IsSpace(s[k]))
  }

  /** Python's `str.strip()`: the longest infix of `s` that neither starts nor ends
      with whitespace, once only whitespace has been cut from either end. */
  function Strip(s: string): (r: string)
    ensures r == [] || (!IsSpace(r[0]) && !IsSpace(r[|r| - 1]))
    ensures exists i :: Trims(s, i, r)
  {
    var l := StripLeft(s);
    var r := StripRight(l);
    assert Trims(s, |s| - |l|, r);
    r
  }

  /** A string with no whitespace at either end is its own strip. */
  lemma StripKeeps(s: string)
    requires s == [] || (!IsSpace(s[0]) && !IsSpace(s[|s| - 1]))
    ensures Strip(s) == s
  {
  }

  /** Leading whitespace is cut whatever follows it. */
  lemma StripSkipsLeft(s: string)
    requires |s| > 0 && IsSpace(s[0])
    ensures Strip(s) == Strip(s[1..])
  {
  }

  /** Dropping a trailing space before cutting the leading ones drops the last
      character of what is left, if anything is. */
  lemma {:induction false} StripLeftInit(s: string)
    requires |s| > 0 && IsSpace(s[|s| - 1])
    ensures var l := StripLeft(s);
      StripLeft(s[..|s| - 1]) == if l == [] then [] else l[..|l| - 1]
  {
    if IsSpace(s[0]) && |s| > 1 {
      assert s[..|s| - 1][1..] == s[1..][..|s[1..]| - 1];
      StripLeftInit(s[1..]);
    }
  }

  /** Trailing whitespace is cut whatever precedes it. */
  lemma StripSkipsRight(s: string)
    requires |s| > 0 && IsSpace(s[|s| - 1])
    ensures Strip(s) == Strip(s[..|s| - 1])
  {
    StripLeftInit(s);
  }

  function LowerChar(c: char): char {
    if 'A' <= c <= 'Z' then (c as int + 32) as char else c
  }

  /** `str.lower()` on the ASCII letters; every other character is kept. */
  function Lower(s: string): (r: string)
    ensures |r| == |s|
    ensures forall i :: 0 <= i < |s| ==> r[i] == LowerChar(s[i])
  {
    if |s| == 0 then [] else [LowerChar(s[0])] + Lower(s[1..])
  }

  /** Python's `pat in s` for strings. */
  predicate Contains(s: string, pat: string)
    decreases |s|
  {
    pat <= s || (|s| > 0 && Contains(s[1..], pat))
  }

  predicate IsDigit(c: char) {
    '0' <= c <= '9'
  }

  predicate AllDigits(s: string) {
    forall i :: 0 <= i < |s| ==> IsDigit(s[i])
  }

  function DigitValue(c: char): nat
    requires IsDigit(c)
  {
    c as int - '0' as int
  }

  function DigitChar(d: nat): (c: char)
    requires d < 10
    ensures IsDigit(c) && DigitValue(c) == d
  {
    ('0' as int + d) as char
  }

  /** The value of a decimal numeral, most significant digit first. */
  function DigitsValue(s: string): nat
    requires AllDigits(s)
  {
    if |s| == 0 then 0 else DigitsValue(s[..|s| - 1]) * 10 + DigitValue(s[|s| - 1])
  }

  /** strftime's two-digit zero-padded fields (`%m`, `%d`, `%H`, `%M`). */
  function Pad2(n: nat): (r: string)
    requires n < 100
    ensures |r| == 2 && AllDigits(r) && DigitsValue(r) == n
  {
    var r := [DigitChar(n / 10), DigitChar(n % 10)];
    assert r[..1] == [r[0]] && r[..1][..0] == [];
    assert DigitsValue(r[..1]) == n / 10;
    r
  }

  /** strftime's four-digit year `%Y`, zero-padded. */
  function Pad4(n: nat): (r: string)
    requires n < 10000
    ensures |r| == 4 && AllDigits(r) && DigitsValue(r) == n
  {
    var hi := Pad2(n / 100);
    var lo := Pad2(n % 100);
    var r := hi + lo;
    assert r[..3][..2] == hi && r[..3] == hi + [lo[0]] && lo[..1] == [lo[0]];
    r
  }

  /** `sep.join(segs)`. */
  function Join(sep: char, segs: seq<string>): string {
    if |segs| == 0 then ""
    else if |segs| == 1 then segs[0]
    else segs[0] + [sep] + Join(sep, segs[1..])
  }

  /** `s.split(sep)`: the pieces between occurrences of `sep`, always at least one. */
  function Split(s: string, sep: char): (r: seq<string>)
    ensures |r| >= 1
  {
    if |s| == 0 then [""]
    else
      var rest := Split(s[1..], sep);
      if s[0] == sep then [""] + rest else [[s[0]] + rest[0]] + rest[1..]
  }

  lemma {:induction false} SplitWithout(a: string, sep: char)
    requires sep !in a
    ensures Split(a, sep) == [a]
  {
    if |a| > 0 {
      SplitWithout(a[1..], sep);
      assert [a[0]] + a[1..] == a;
    }
  }

  lemma {:induction false} SplitAfterFirst(a: string, sep: char, b: string)
    requires sep !in a
    ensures Split(a + [sep] + b, sep) == [a] + Split(b, sep)
  {
    var s := a + [sep] + b;
    if |a| == 0 {
      assert s[1..] == b;
    } else {
      assert s[1..] == a[1..] + [sep] + b;
      SplitAfterFirst(a[1..], sep, b);
      assert [a[0]] + a[1..] == a;
    }
  }

  /** Splitting undoes joining when no segment holds the separator. */
  lemma {:induction false} SplitJoin(sep: char, segs: seq<string>)
    requires |segs| >= 1
    requires forall i :: 0 <= i < |segs| ==> sep !in segs[i]
    ensures Split(Join(sep, segs), sep) == segs
  {
    if |segs| == 1 {
      SplitWithout(segs[0], sep);
    } else {
      SplitJoin(sep, segs[1..]);
      SplitAfterFirst(segs[0], sep, Join(sep, segs[1..]));
      assert [segs[0]] + segs[1..] == segs;
    }
  }

  /** Joining two non-empty lists is joining each and putting one separator between. */
  lemma {:induction false} JoinAppend(sep: char, a: seq<string>, b: seq<string>)
    requires |a| >= 1 && |b| >= 1
    ensures Join(sep, a + b) == Join(sep, a) + [sep] + Join(sep, b)
  {
    if |a| == 1 {
      assert (a + b)[1..] == b;
    } else {
      assert (a + b)[1..] == a[1..] + b;
      JoinAppend(sep, a[1..], b);
    }
  }
}

=== FILE: timeparse.dfy ===
/** Turning a timetable time string ("HHMM" or "HHMMSS") into a datetime on the
    service date, as `Train._location_datetime` does with strptime, combine and int(). */
module TimeParse {
  import opened Wrappers
  import opened Errors
  import opened Text
  import opened Calendar

  /** Four digits naming a clock time 00:00 to 23:59. */
  predicate ValidHHMM(t: string) {
    |t| == 4 && AllDigits(t) && DigitsValue(t[..2]) <= 23 && DigitsValue(t[2..]) <= 59
  }

  /** Seconds past midnight of a valid "HHMM". */
  function HHMMSeconds(t: string): int
    requires ValidHHMM(t)
  {
    DigitsValue(t[..2]) * 3600 + DigitsValue(t[2..]) * 60
  }

  lemma TwoDigits(t: string)
    requires |t| == 2 && AllDigits(t)
    ensures DigitsValue(t) == DigitValue(t[0]) * 10 + DigitValue(t[1])
  {
    assert t[..1] == [t[0]] && t[..1][..0] == [];
    assert DigitsValue(t[..1]) == DigitValue(t[0]);
  }

  /** `strptime(t, "%H%M")` as (hour, minute). The format compiles to the pattern
      `(2[0-3]|[0-1]\d|\d)([0-5]\d|\d)`; the first match in alternative order is taken
      and must consume all of `t`, so two- and three-digit strings also parse. */
  function StrptimeHM(t: string): (r: Option<(int, int)>)
    ensures r.Some? ==> 0 <= r.value.0 <= 23 && 0 <= r.value.1 <= 59
    ensures r.Some? ==> 2 <= |t| <= 4 && AllDigits(t)
    ensures |t| == 4 ==> (r.Some? <==> ValidHHMM(t))
    ensures r.Some? && |t| == 4 ==> r.value.0 * 3600 + r.value.1 * 60 == HHMMSeconds(t)
    ensures |t| == 2 && AllDigits(t) ==> r == Some((DigitValue(t[0]), DigitValue(t[1])))
    ensures |t| == 3 && AllDigits(t) ==> (r.Some? <==> DigitsValue(t[..2]) <= 23 || DigitValue(t[1]) <= 5)
    ensures |t| == 3 && AllDigits(t) && DigitsValue(t[..2]) <= 23 ==> r == Some((DigitsValue(t[..2]), DigitValue(t[2])))
    ensures |t| == 3 && AllDigits(t) && DigitsValue(t[..2]) > 23 && r.Some? ==> r == Some((DigitValue(t[0]), DigitsValue(t[1..])))
    ensures r.Some? ==> exists k :: 1 <= k <= 2 && 1 <= |t| - k <= 2 && AllDigits(t[..k]) && AllDigits(t[k..])
                                   && DigitsValue(t[..k]) == r.value.0 && DigitsValue(t[k..]) == r.value.1
  {
    if |t| < 2 || |t| > 4 || !AllDigits(t) then None
    else if |t| == 4 then
      if ValidHHMM(t) then
        HourMinuteSplit(t, 2);
        Some((DigitsValue(t[..2]), DigitsValue(t[2..])))
      else None
    else if |t| == 2 then
      HourMinuteSplit(t, 1);
      Some((DigitValue(t[0]), DigitValue(t[1])))
    else if DigitsValue(t[..2]) <= 23 then
      HourMinuteSplit(t, 2);
      Some((DigitsValue(t[..2]), DigitValue(t[2])))
    else if DigitValue(t[1]) <= 5 then
      TwoDigits(t[1..]);
      HourMinuteSplit(t, 1);
      Some((DigitValue(t[0]), DigitsValue(t[1..])))
    else None
  }

  /** Cutting a digit string after `k` digits gives an hour and a minute numeral; a
      single digit reads as itself. */
  lemma HourMinuteSplit(t: string, k: int)
    requires AllDigits(t) && 1 <= k < |t|
    ensures AllDigits(t[..k]) && AllDigits(t[k..])
    ensures k == 1 ==> DigitsValue(t[..k]) == DigitValue(t[0])
    ensures |t| - k == 1 ==> DigitsValue(t[k..]) == DigitValue(t[k])
  {
    assert t[..k][..k - 1] == t[..k - 1];
    if k == 1 {
      assert t[..1][..0] == [];
    }
    if |t| - k == 1 {
      assert t[k..][..0] == [];
    }
  }

  /** A clock rendered with "%H%M" parses back to the same hour and minute. */
  lemma StrptimeFormatClock(c: ValidClock)
    ensures StrptimeHM(FormatClock(c)) == Some((c.hour, c.minute))
  {
    var t := FormatClock(c);
    assert t[..2] == Pad2(c.hour) && t[2..] == Pad2(c.minute);
  }

  /** The ASCII information separators U+001C to U+001F. `str.strip()` cuts them, but
      `int()` skips only C-level whitespace around its digits, which leaves them out. */
  predicate IsSeparatorControl(c: char) {
    0x1C <= c as int <= 0x1F
  }

  /** What `int()` skips on either side of the number: `str.isspace()` whitespace
      except the information separators. */
  predicate IsIntSpace(c: char) {
    IsSpace(c) && !IsSeparatorControl(c)
  }

  predicate HasSeparatorControl(t: string) {
    exists i :: 0 <= i < |t| && IsSeparatorControl(t[i])
  }

  /** Python's `int(t)`: surrounding whitespace is ignored, then an optional sign and
      decimal digits. */
  function PyInt(t: string): Option<int>
    decreases |t|
  {
    if |t| > 0 && IsIntSpace(t[0]) then PyInt(t[1..])
    else if |t| > 0 && IsIntSpace(t[|t| - 1]) then PyInt(t[..|t| - 1])
    else ReadInteger(t)
  }

  /** An optional sign followed by at least one decimal digit, and nothing else. */
  function ReadInteger(u: string): Option<int> {
    if |u| >= 2 && (u[0] == '+' || u[0] == '-') && AllDigits(u[1..]) then
      var magnitude: int := DigitsValue(u[1..]);
      Some(if u[0] == '-' then -magnitude else magnitude)
    else if |u| >= 1 && AllDigits(u) then Some(DigitsValue(u))
    else None
  }

  /** An integer literal holds no information separator. */
  lemma ReadIntegerRejectsSeparator(u: string)
    requires HasSeparatorControl(u)
    ensures ReadInteger(u) == None
  {
    var i :| 0 <= i < |u| && IsSeparatorControl(u[i]);
    if i > 0 {
      assert u[1..][i - 1] == u[i];
    }
  }

  lemma SeparatorAfterFirst(t: string)
    requires |t| > 0 && !IsSeparatorControl(t[0])
    ensures HasSeparatorControl(t) == HasSeparatorControl(t[1..])
  {
    if HasSeparatorControl(t) {
      var i :| 0 <= i < |t| && IsSeparatorControl(t[i]);
      assert IsSeparatorControl(t[1..][i - 1]);
    }
    if HasSeparatorControl(t[1..]) {
      var i :| 0 <= i < |t[1..]| && IsSeparatorControl(t[1..][i]);
      assert IsSeparatorControl(t[i + 1]);
    }
  }

  lemma SeparatorBeforeLast(t: string)
    requires |t| > 0 && !IsSeparatorControl(t[|t| - 1])
    ensures HasSeparatorControl(t) == HasSeparatorControl(t[..|t| - 1])
  {
    if HasSeparatorControl(t) {
      var i :| 0 <= i < |t| && IsSeparatorControl(t[i]);
      assert IsSeparatorControl(t[..|t| - 1][i]);
    }
  }

  /** `int()` reads what `str.strip()` leaves, unless the string holds an information
      separator, which `int()` never skips and no integer contains. */
  lemma {:induction false} PyIntStrips(t: string)
    ensures HasSeparatorControl(t) ==> PyInt(t) == None
    ensures !HasSeparatorControl(t) ==> PyInt(t) == ReadInteger(Strip(t))
    decreases |t|
  {
    if |t| > 0 && IsIntSpace(t[0]) {
      PyIntStrips(t[1..]);
      StripSkipsLeft(t);
      SeparatorAfterFirst(t);
    } else if |t| > 0 && IsIntSpace(t[|t| - 1]) {
      PyIntStrips(t[..|t| - 1]);
      StripSkipsRight(t);
      SeparatorBeforeLast(t);
    } else if HasSeparatorControl(t) {
      ReadIntegerRejectsSeparator(t);
    } else {
      assert |t| > 0 ==> !IsSeparatorControl(t[0]) && !IsSeparatorControl(t[|t| - 1]);
      StripKeeps(t);
    }
  }

  /** An information separator before the seconds is not skipped as `str.strip()`
      would skip it: "1030\U{1C}5" is a ValueError, not 10:30:05. */
  lemma SeparatorNotSkipped()
    ensures Strip("\U{1C}5") == "5"
    ensures ParseTimeOffset("1030\U{1C}5") == Failure(ValueError("1030\U{1C}5"))
  {
    SeparatorSuffix();
    UnreadSeconds("1030", "\U{1C}5");
    assert "1030" + "\U{1C}5" == "1030\U{1C}5";
  }

  /** Six characters whose last two `int()` rejects are a ValueError. */
  lemma UnreadSeconds(hhmm: string, ss: string)
    requires |hhmm| == 4 && |ss| == 2 && PyInt(ss) == None
    ensures ParseTimeOffset(hhmm + ss) == Failure(ValueError(hhmm + ss))
  {
    assert (hhmm + ss)[4..] == ss;
  }

  lemma SeparatorSuffix()
    ensures Strip("\U{1C}5") == "5" && PyInt("\U{1C}5") == None
  {
    SeparatorStripped();
    SeparatorUnread();
  }

  lemma SeparatorStripped()
    ensures Strip("\U{1C}5") == "5"
  {
    StripOneLeading('\U{1C}', "5");
    assert ['\U{1C}'] + "5" == "\U{1C}5";
  }

  lemma StripOneLeading(c: char, s: string)
    requires IsSpace(c) && |s| > 0 && !IsSpace(s[0]) && !IsSpace(s[|s| - 1])
    ensures Strip([c] + s) == s
  {
    assert ([c] + s)[1..] == s;
    StripSkipsLeft([c] + s);
    StripKeeps(s);
  }

  lemma SeparatorUnread()
    ensures PyInt("\U{1C}5") == None
  {
    var t := "\U{1C}5";
    assert !IsIntSpace(t[0]) && !IsIntSpace(t[|t| - 1]);
    assert !IsDigit(t[0]) && t[0] != '+' && t[0] != '-';
    assert ReadInteger(t) == None;
  }

  /** A plain run of digits reads as its decimal value. */
  lemma PyIntDigits(t: string)
    requires |t| > 0 && AllDigits(t)
    ensures PyInt(t) == Some(DigitsValue(t))
  {
    assert !IsSpace(t[0]) && !IsSpace(t[|t| - 1]);
  }

  /** The offset from the service date's midnight: the first four characters through
      strptime, plus `int(s[4:])` seconds when `s` has exactly six characters. */
  function ParseTimeOffset(s: string): (r: Result<int, Error>)
    ensures r.Failure? ==> r.error == ValueError(s)
    ensures |s| >= 4 ==> (r.Success? ==> ValidHHMM(s[..4]))
    ensures |s| == 4 ==> (r.Success? <==> ValidHHMM(s))
    ensures |s| == 4 && r.Success? ==> r.value == HHMMSeconds(s)
    ensures r.Success? && |s| != 6 ==> 0 <= r.value < SecondsPerDay
    ensures |s| == 6 ==> (r.Success? <==> ValidHHMM(s[..4]) && PyInt(s[4..]).Some?)
    ensures |s| == 6 && r.Success? ==> r.value == HHMMSeconds(s[..4]) + PyInt(s[4..]).value
    ensures |s| < 4 ==> (r.Success? <==> StrptimeHM(s).Some?)
    ensures |s| < 4 && r.Success? ==> r.value == StrptimeHM(s).value.0 * 3600 + StrptimeHM(s).value.1 * 60
  {
    var head := if |s| <= 4 then s else s[..4];
    assert |s| >= 4 ==> head == s[..4];
    var hm := StrptimeHM(head);
    if hm.None? then Failure(ValueError(s))
    else
      var base := hm.value.0 * 3600 + hm.value.1 * 60;
      if |s| == 6 then
        var seconds := PyInt(s[4..]);
        if seconds.None? then Failure(ValueError(s)) else Success(base + seconds.value)
      else Success(base)
  }

  /** A six-character time adds its last two digits as seconds; up to 59 of them keep
      the time on the service date. */
  lemma SixCharTime(hhmm: string, ss: string)
    requires ValidHHMM(hhmm) && |ss| == 2 && AllDigits(ss)
    ensures ParseTimeOffset(hhmm + ss) == Success(HHMMSeconds(hhmm) + DigitsValue(ss))
    ensures DigitsValue(ss) <= 59 ==> 0 <= ParseTimeOffset(hhmm + ss).value < SecondsPerDay
  {
    var s := hhmm + ss;
    assert s[..4] == hhmm && s[4..] == ss;
    var hm := StrptimeHM(hhmm);
    assert hm.value.0 * 3600 + hm.value.1 * 60 == HHMMSeconds(hhmm) <= 23 * 3600 + 59 * 60;
    PyIntDigits(ss);
    assert StrptimeHM(s[..4]) == hm;
    assert PyInt(s[4..]) == Some(DigitsValue(ss));
    assert ParseTimeOffset(s) == Success(hm.value.0 * 3600 + hm.value.1 * 60 + DigitsValue(ss));
  }

  /** Fewer than four characters go to strptime whole. "930" is 09:30, and "245" is
      02:45 because "24" is no hour; "295" fails, since "2" leaves "95" for the minute. */
  lemma ShortTimes()
    ensures ParseTimeOffset("930") == Success(34200)
    ensures ParseTimeOffset("245") == Success(9900)
    ensures ParseTimeOffset("295") == Failure(ValueError("295"))
  {
    ShortClocks();
  }

  lemma ShortClocks()
    ensures StrptimeHM("930") == Some((9, 30))
    ensures StrptimeHM("245") == Some((2, 45))
    ensures StrptimeHM("295") == None
  {
    assert "930"[..2] == "93" && "245"[..2] == "24" && "295"[..2] == "29";
    TwoDigits("93");
    TwoDigits("24");
    TwoDigits("29");
    assert "245"[1..] == "45";
    TwoDigits("45");
  }

  /** The seconds are not range-checked: "235999" lies 39 seconds into the next day. */
  lemma SecondsPastMidnight()
    ensures ParseTimeOffset("235999") == Success(SecondsPerDay + 39)
  {
    TwoDigits("23");
    TwoDigits("59");
    TwoDigits("99");
    assert "2359"[..2] == "23" && "2359"[2..] == "59";
    SixCharTime("2359", "99");
    assert "2359" + "99" == "235999";
  }

  /** `int()` accepts a sign: "0000-1" is one second before the service date begins. */
  lemma SignedSeconds()
    ensures ParseTimeOffset("0000-1") == Success(-1)
  {
    var s := "0000-1";
    assert s[..4] == "0000" && s[4..] == "-1";
    TwoDigits("00");
    assert "0000"[..2] == "00" && "0000"[2..] == "00";
    assert StrptimeHM("0000") == Some((0, 0));
    assert "-1"[1..] == "1";
    assert ReadInteger("-1") == Some(-1);
    assert PyInt("-1") == Some(-1);
  }

  /** Characters after the fourth are ignored unless there are exactly six. */
  lemma ExtraCharactersIgnored(s: string)
    requires |s| == 5 || |s| > 6
    ensures ParseTimeOffset(s).Success? <==> ValidHHMM(s[..4])
    ensures ParseTimeOffset(s).Success? ==> ParseTimeOffset(s).value == HHMMSeconds(s[..4])
  {
  }

  /** `_location_datetime(date, s)`: the service date at the parsed time. Combining a
      date with a time of day always gives a datetime Python can hold; adding the
      seconds of a six-character time may not, and raises OverflowError. */
  function LocationDatetime(date: ValidDate, s: string): (r: Result<int, Error>)
    ensures ParseTimeOffset(s).Failure? ==> r == Failure(ValueError(s))
    ensures r.Success? ==> ParseTimeOffset(s).Success? && r.value - Midnight(date) == ParseTimeOffset(s).value
    ensures r.Success? ==> InDatetimeRange(r.value)
    ensures ParseTimeOffset(s).Success? ==> (r.Success? <==> InDatetimeRange(Midnight(date) + ParseTimeOffset(s).value))
    ensures r.Failure? && ParseTimeOffset(s).Success? ==> r.error == OverflowError
    ensures |s| != 6 ==> (r.Success? <==> ParseTimeOffset(s).Success?)
    ensures |s| == 4 && r.Success? ==> Midnight(date) <= r.value < Midnight(date) + SecondsPerDay
  {
    var offset :- ParseTimeOffset(s);
    var t := Midnight(date) + offset;
    assert |s| != 6 ==> InDatetimeRange(t) by {
      if |s| != 6 {
        CombineInRange(date, offset);
      }
    }
    if |s| == 6 && !InDatetimeRange(t) then Failure(OverflowError) else Success(t)
  }

  /** The last second of 9999-12-31 plus 99 seconds is past the end of the calendar. */
  lemma LastDayOverflows()
    ensures LocationDatetime(Date(9999, 12, 31), "235999") == Failure(OverflowError)
  {
    DaysBeforeDecember(9999);
    assert Ordinal(Date(9999, 12, 31)) == MaxOrdinal;
    SecondsPastMidnight();
  }

  /** One second before 0001-01-01 is before the start of the calendar. */
  lemma FirstDayUnderflows()
    ensures LocationDatetime(Date(1, 1, 1), "0000-1") == Failure(OverflowError)
  {
    assert Ordinal(Date(1, 1, 1)) == 1;
    SignedSeconds();
  }
}

=== FILE: trains.dfy ===
/** A service on a date (`rtt.Train`): how it is made, when two are the same train, and
    how a service-lookup payload fills in its route and running flag. The HTTP request
    itself is not modelled: `Populate` starts from the decoded response body. */
module Trains {
  import opened Wrappers
  import opened Errors
  import opened Calendar
  import opened Payload
  import opened Locations
  import opened Routes
  import opened Urls

  /** `route` stands for the `origin`, `calling_points` and `destination` attributes,
      which are all `None` until the train is populated. */
  datatype Train = Train(uid: string, date: ValidDate, url: string, route: Option<Route>, running: bool)

  /** `Train(rtt, uid, date)` / `rtt.make_train(uid, date)`; `today` stands in for
      `datetime.today()` when no date is given. */
  function MakeTrain(client: Client, uid: string, date: Option<ValidDate>, today: ValidDate): (t: Train)
    ensures t.uid == uid && t.date == (if date.Some? then date.value else today)
    ensures t.route.None? && !t.running
    ensures t.url == TrainUrl(client, uid, t.date)
    ensures '/' !in client.TrainSearch() && '/' !in uid ==> ParseTrainUrl(t.url) == Some((client.TrainSearch(), uid, t.date))
  {
    var d := date.GetOr(today);
    assert '/' !in client.TrainSearch() && '/' !in uid ==> ParseTrainUrl(TrainUrl(client, uid, d)) == Some((client.TrainSearch(), uid, d)) by {
      if '/' !in client.TrainSearch() && '/' !in uid {
        TrainUrlRoundTrip(client, uid, d);
      }
    }
    Train(uid, d, TrainUrl(client, uid, d), None, false)
  }

  /** `Train.__eq__`: the same uid on the same date. */
  predicate SameTrain(a: Train, b: Train) {
    a.uid == b.uid && a.date == b.date
  }

  /** Train identity is an equivalence that looks only at (uid, date): the url, the
      route and the running flag play no part. */
  lemma SameTrainIsIdentity(a: Train, b: Train, c: Train)
    ensures SameTrain(a, a)
    ensures SameTrain(a, b) ==> SameTrain(b, a)
    ensures SameTrain(a, b) && SameTrain(b, c) ==> SameTrain(a, c)
  {
  }

  /** Two trains made by the same client are the same train exactly when they look up
      the same service path, as long as no uid contains '/'. */
  lemma SameTrainIffSameUrl(client: Client, uid1: string, date1: Option<ValidDate>,
                            uid2: string, date2: Option<ValidDate>, today: ValidDate)
    requires '/' !in client.TrainSearch() && '/' !in uid1 && '/' !in uid2
    ensures var a := MakeTrain(client, uid1, date1, today); var b := MakeTrain(client, uid2, date2, today);
      SameTrain(a, b) <==> a.url == b.url
  {
    var a := MakeTrain(client, uid1, date1, today);
    var b := MakeTrain(client, uid2, date2, today);
    if a.url == b.url {
      assert ParseTrainUrl(a.url) == ParseTrainUrl(b.url);
    }
  }

  /** One entry of the `locations` list: it must be a JSON object. */
  function PlaceResult(date: ValidDate, place: Json): Result<Location, Error> {
    if place.Dict? then Extract(date, place.fields) else Failure(TypeError)
  }

  /** The loop of `update_locations`: every entry read in payload order; the first
      entry that fails stops the loop with its error. */
  function ExtractAll(date: ValidDate, places: seq<Json>): (r: Result<seq<Location>, Error>)
    ensures r.Success? ==> |r.value| == |places|
    ensures r.Success? ==> forall i :: 0 <= i < |places| ==> PlaceResult(date, places[i]) == Success(r.value[i])
    ensures r.Success? <==> forall i :: 0 <= i < |places| ==> PlaceResult(date, places[i]).Success?
    ensures r.Failure? ==> exists i :: FirstFailureAt(p => PlaceResult(date, p), places, i)
                                       && PlaceResult(date, places[i]) == Failure(r.error)
  {
    MapAll(p => PlaceResult(date, p), places)
  }

  /** `running`: whether the response's top level has a `realtimeActivated` key, whatever its value. */
  predicate RealtimeActivated(payload: Json) {
    payload.Dict? && HasKey(payload.fields, "realtimeActivated")
  }

  /** The flag tests the key, not its value: a `realtimeActivated` key holding false or
      null still counts, and only a body without the key is not running. */
  lemma RealtimeActivatedByKey(fields: Fields, v: Json)
    ensures RealtimeActivated(Dict([("realtimeActivated", v)] + fields))
    ensures RealtimeActivated(Dict(fields + [("realtimeActivated", v)]))
    ensures !HasKey(fields, "realtimeActivated") ==> !RealtimeActivated(Dict(fields))
  {
    assert ([("realtimeActivated", v)] + fields)[0].0 == "realtimeActivated";
    assert (fields + [("realtimeActivated", v)])[|fields|].0 == "realtimeActivated";
  }

  /** `route` is the corrected route of the `locations` list of `payload`. */
  predicate Normalized(date: ValidDate, payload: Json, route: Route) {
    && payload.Dict?
    && HasKey(payload.fields, "locations")
    && var places := Iterate(Get(payload.fields, "locations").value);
    && places.Success?
    && ExtractAll(date, places.value).Success?
    && Normalize(ExtractAll(date, places.value).value) == Success(route)
  }

  /** `populate` after the request: the running flag from the top level, then
      `update_locations` on the `locations` list. Everything else about the train is kept. */
  function Populate(t: Train, payload: Json): (r: Result<Train, Error>)
    ensures !payload.Dict? ==> r == Failure(TypeError)
    ensures payload.Dict? && !HasKey(payload.fields, "locations") ==> r == Failure(KeyError("locations"))
    ensures r.Success? ==> SameTrain(r.value, t) && r.value.url == t.url
    ensures r.Success? ==> r.value.running == RealtimeActivated(payload)
    ensures r.Success? ==> r.value.route.Some?
    ensures r.Success? ==> Normalized(t.date, payload, r.value.route.value)
    ensures payload.Dict? && HasKey(payload.fields, "locations") ==>
      var places := Iterate(Get(payload.fields, "locations").value);
      && (places.Failure? ==> r == Failure(TypeError))
      && (places.Success? && ExtractAll(t.date, places.value).Failure? ==>
            r == Failure(ExtractAll(t.date, places.value).error))
      && (places.Success? && ExtractAll(t.date, places.value).Success?
          && Normalize(ExtractAll(t.date, places.value).value).Failure? ==>
            r == Failure(Normalize(ExtractAll(t.date, places.value).value).error))
  {
    if !payload.Dict? then Failure(TypeError)
    else
      var running := HasKey(payload.fields, "realtimeActivated");
      var locations :- Require(payload.fields, "locations");
      var places :- Iterate(locations);
      var locs :- ExtractAll(t.date, places);
      var route :- Normalize(locs);
      Success(t.(route := Some(route), running := running))
  }

  /** Populating replaces what an earlier population left: the result does not depend
      on the train's previous route or running flag. */
  lemma PopulateReplaces(t: Train, payload: Json, oldRoute: Option<Route>, oldRunning: bool)
    ensures Populate(t.(route := oldRoute, running := oldRunning), payload) == Populate(t, payload)
  {
  }

  /** An empty `locations` list fails on `locations[0]` with IndexError. */
  lemma PopulateEmpty(t: Train, fields: Fields)
    requires Get(fields, "locations") == Some(List([]))
    ensures Populate(t, Dict(fields)) == Failure(IndexError)
  {
    assert ExtractAll(t.date, []) == Success([]);
  }

  /** A body whose `locations` list reads and normalises populates the train with that
      route; the general success case of `Populate`. */
  lemma PopulateKnown(t: Train, fields: Fields, places: seq<Json>, locs: seq<Location>, route: Route)
    requires Get(fields, "locations") == Some(List(places))
    requires ExtractAll(t.date, places) == Success(locs) && Normalize(locs) == Success(route)
    ensures Populate(t, Dict(fields)) == Success(t.(route := Some(route), running := HasKey(fields, "realtimeActivated")))
  {
  }
}

/** Worked examples of a whole service lookup. */
module TrainExamples {
  import opened Wrappers
  import opened Text
  import opened Calendar
  import opened TimeParse
  import opened Payload
  import opened Locations
  import opened Routes
  import opened Trains

  lemma {:induction false} NotContainsFirst(s: string, pat: string)
    requires |pat| > 0 && pat[0] !in s
    ensures !Contains(s, pat)
  {
    if |s| > 0 {
      NotContainsFirst(s[1..], pat);
    }
  }

  lemma FourDigitTime(s: string, h: nat, m: nat)
    requires |s| == 4 && AllDigits(s)
    requires DigitValue(s[0]) * 10 + DigitValue(s[1]) == h <= 23 && DigitValue(s[2]) * 10 + DigitValue(s[3]) == m <= 59
    ensures ParseTimeOffset(s) == Success(h * 3600 + m * 60)
  {
    TwoDigits(s[..2]);
    TwoDigits(s[2..]);
  }

  lemma NoLateness(place: Fields)
    requires forall i :: 0 <= i < |place| ==> 'L' !in place[i].0
    ensures FirstLateness(place) == Num(0)
  {
    forall i | 0 <= i < |place|
      ensures !IsLatenessPair(place[i])
    {
      NotContainsFirst(place[i].0, "Lateness");
    }
  }

  /** A null lateness is passed over: the delay is the first lateness that has a value. */
  lemma NullLatenessSkipped()
    ensures FirstLateness([("tiploc", Str("ORIG")), ("arrLateness", Null), ("depLateness", Num(-3))]) == Num(-3)
  {
    var place := [("tiploc", Str("ORIG")), ("arrLateness", Null), ("depLateness", Num(-3))];
    assert "Lateness" <= "depLateness"[3..];
    assert Contains("depLateness", "Lateness");
    assert FirstLatenessAt(place, 2);
  }

  function Origin(): Fields {
    [("description", Str("Origin")), ("tiploc", Str("ORIG")), ("wttBookedDeparture", Str("1000"))]
  }

  function Middle(): Fields {
    [("description", Str("Middle")), ("tiploc", Str("MIDL")), ("wttBookedPass", Str("1015"))]
  }

  function End(): Fields {
    [("description", Str("End")), ("tiploc", Str("END")), ("wttBookedArrival", Str("1030")),
     ("realtimeArrival", Str("1033"))]
  }

  lemma OriginDelay()
    ensures FirstLateness(Origin()) == Num(0)
  {
    NoLateness(Origin());
  }

  lemma OriginName()
    ensures Strip("Origin") == "Origin"
  {
    StripKeeps("Origin");
  }

  lemma OriginKeys()
    ensures Get(Origin(), "description") == Some(Str("Origin")) && Get(Origin(), "tiploc") == Some(Str("ORIG"))
    ensures Get(Origin(), "crs") == None
    ensures !HasKey(Origin(), BookedArrival) && HasKey(Origin(), BookedDeparture)
    ensures !HasKey(Origin(), RealtimeArrival) && !HasKey(Origin(), RealtimeDeparture) && !HasKey(Origin(), RealtimePass)
  {
  }

  lemma OriginBooked(d: ValidDate)
    ensures TimeField(d, Origin(), BookedDeparture) == Success(Some(Midnight(d) + 36000))
  {
    FourDigitTime("1000", 10, 0);
  }

  lemma OriginFields(d: ValidDate)
    ensures Get(Origin(), "description") == Some(Str("Origin")) && OriginStop(Midnight(d)).name == Strip("Origin")
    ensures Get(Origin(), "tiploc") == Some(OriginStop(Midnight(d)).tiploc) && OriginStop(Midnight(d)).crs == Get(Origin(), "crs").GetOr(Null)
    ensures TimeField(d, Origin(), BookedArrival) == Success(OriginStop(Midnight(d)).wttArr)
    ensures FieldOr(d, Origin(), BookedDeparture, BookedPass) == Success(OriginStop(Midnight(d)).wttDep)
    ensures TimeField(d, Origin(), RealtimeArrival) == Success(OriginStop(Midnight(d)).realArr)
    ensures FieldOr(d, Origin(), RealtimeDeparture, RealtimePass) == Success(OriginStop(Midnight(d)).realDep)
    ensures OriginStop(Midnight(d)).delay == FirstLateness(Origin())
  {
    OriginKeys();
    OriginDelay();
    OriginName();
    OriginBooked(d);
  }

  lemma MiddleDelay()
    ensures FirstLateness(Middle()) == Num(0)
  {
    NoLateness(Middle());
  }

  lemma MiddleName()
    ensures Strip("Middle") == "Middle"
  {
    StripKeeps("Middle");
  }

  lemma MiddleKeys()
    ensures Get(Middle(), "description") == Some(Str("Middle")) && Get(Middle(), "tiploc") == Some(Str("MIDL"))
    ensures Get(Middle(), "crs") == None
    ensures !HasKey(Middle(), BookedArrival) && !HasKey(Middle(), BookedDeparture)
    ensures !HasKey(Middle(), RealtimeArrival) && !HasKey(Middle(), RealtimeDeparture) && !HasKey(Middle(), RealtimePass)
  {
  }

  lemma MiddleBooked(d: ValidDate)
    ensures TimeField(d, Middle(), BookedPass) == Success(Some(Midnight(d) + 36900))
  {
    FourDigitTime("1015", 10, 15);
  }

  lemma MiddleFields(d: ValidDate)
    ensures Get(Middle(), "description") == Some(Str("Middle")) && MiddleStop(Midnight(d)).name == Strip("Middle")
    ensures Get(Middle(), "tiploc") == Some(MiddleStop(Midnight(d)).tiploc) && MiddleStop(Midnight(d)).crs == Get(Middle(), "crs").GetOr(Null)
    ensures TimeField(d, Middle(), BookedArrival) == Success(MiddleStop(Midnight(d)).wttArr)
    ensures FieldOr(d, Middle(), BookedDeparture, BookedPass) == Success(MiddleStop(Midnight(d)).wttDep)
    ensures TimeField(d, Middle(), RealtimeArrival) == Success(MiddleStop(Midnight(d)).realArr)
    ensures FieldOr(d, Middle(), RealtimeDeparture, RealtimePass) == Success(MiddleStop(Midnight(d)).realDep)
    ensures MiddleStop(Midnight(d)).delay == FirstLateness(Middle())
  {
    MiddleKeys();
    MiddleDelay();
    MiddleName();
    MiddleBooked(d);
  }

  lemma EndDelay()
    ensures FirstLateness(End()) == Num(0)
  {
    NoLateness(End());
  }

  lemma EndName()
    ensures Strip("End") == "End"
  {
    StripKeeps("End");
  }

  lemma EndKeys()
    ensures Get(End(), "description") == Some(Str("End")) && Get(End(), "tiploc") == Some(Str("END"))
    ensures Get(End(), "crs") == None
    ensures !HasKey(End(), BookedDeparture) && !HasKey(End(), BookedPass)
    ensures !HasKey(End(), RealtimeDeparture) && !HasKey(End(), RealtimePass)
  {
  }

  lemma EndBooked(d: ValidDate)
    ensures TimeField(d, End(), BookedArrival) == Success(Some(Midnight(d) + 37800))
  {
    FourDigitTime("1030", 10, 30);
  }

  lemma EndRealtime(d: ValidDate)
    ensures TimeField(d, End(), RealtimeArrival) == Success(Some(Midnight(d) + 37980))
  {
    FourDigitTime("1033", 10, 33);
  }

  lemma EndFields(d: ValidDate)
    ensures Get(End(), "description") == Some(Str("End")) && EndStop(Midnight(d)).name == Strip("End")
    ensures Get(End(), "tiploc") == Some(EndStop(Midnight(d)).tiploc) && EndStop(Midnight(d)).crs == Get(End(), "crs").GetOr(Null)
    ensures TimeField(d, End(), BookedArrival) == Success(EndStop(Midnight(d)).wttArr)
    ensures FieldOr(d, End(), BookedDeparture, BookedPass) == Success(EndStop(Midnight(d)).wttDep)
    ensures TimeField(d, End(), RealtimeArrival) == Success(EndStop(Midnight(d)).realArr)
    ensures FieldOr(d, End(), RealtimeDeparture, RealtimePass) == Success(EndStop(Midnight(d)).realDep)
    ensures EndStop(Midnight(d)).delay == FirstLateness(End())
  {
    EndKeys();
    EndDelay();
    EndName();
    EndBooked(d);
    EndRealtime(d);
  }

  lemma ExtractOrigin(d: ValidDate)
    ensures Extract(d, Origin()) == Success(OriginStop(Midnight(d)))
  {
    OriginFields(d);
    ExtractKnown(d, Origin(), "Origin", OriginStop(Midnight(d)));
  }

  lemma ExtractMiddle(d: ValidDate)
    ensures Extract(d, Middle()) == Success(MiddleStop(Midnight(d)))
  {
    MiddleFields(d);
    ExtractKnown(d, Middle(), "Middle", MiddleStop(Midnight(d)));
  }

  lemma ExtractEnd(d: ValidDate)
    ensures Extract(d, End()) == Success(EndStop(Midnight(d)))
  {
    EndFields(d);
    ExtractKnown(d, End(), "End", EndStop(Midnight(d)));
  }

  function OriginStop(m: int): Location {
    Location("Origin", Str("ORIG"), Null, None, Some(m + 36000), None, None, Num(0))
  }

  function MiddleStop(m: int): Location {
    Location("Middle", Str("MIDL"), Null, None, Some(m + 36900), None, None, Num(0))
  }

  function EndStop(m: int): Location {
    Location("End", Str("END"), Null, Some(m + 37800), None, Some(m + 37980), None, Num(0))
  }

  /** Mapping over three elements that each succeed gives the three values. */
  lemma MapThree<A, B, E>(f: A -> Result<B, E>, a: A, b: A, c: A, x: B, y: B, z: B)
    requires f(a) == Success(x) && f(b) == Success(y) && f(c) == Success(z)
    ensures MapAll(f, [a, b, c]) == Success([x, y, z])
  {
    var r := MapAll(f, [a, b, c]);
    assert [a, b, c][0] == a && [a, b, c][1] == b && [a, b, c][2] == c;
    assert r.Success?;
    assert r.value[0] == x && r.value[1] == y && r.value[2] == z;
    assert r.value == [x, y, z];
  }

  lemma PlaceOrigin(d: ValidDate)
    ensures PlaceResult(d, Dict(Origin())) == Success(OriginStop(Midnight(d)))
  {
    ExtractOrigin(d);
  }

  lemma PlaceMiddle(d: ValidDate)
    ensures PlaceResult(d, Dict(Middle())) == Success(MiddleStop(Midnight(d)))
  {
    ExtractMiddle(d);
  }

  lemma PlaceEnd(d: ValidDate)
    ensures PlaceResult(d, Dict(End())) == Success(EndStop(Midnight(d)))
  {
    ExtractEnd(d);
  }

  /** The `locations` list of the example service. */
  function ThreePlaces(): seq<Json> {
    [Dict(Origin()), Dict(Middle()), Dict(End())]
  }

  lemma ExtractThree(d: ValidDate)
    ensures ExtractAll(d, ThreePlaces())
            == Success([OriginStop(Midnight(d)), MiddleStop(Midnight(d)), EndStop(Midnight(d))])
  {
    PlaceOrigin(d);
    PlaceMiddle(d);
    PlaceEnd(d);
    MapThree(p => PlaceResult(d, p), Dict(Origin()), Dict(Middle()), Dict(End()),
             OriginStop(Midnight(d)), MiddleStop(Midnight(d)), EndStop(Midnight(d)));
  }

  lemma NormalizeThree(m: int)
    ensures Normalize([OriginStop(m), MiddleStop(m), EndStop(m)])
            == Success(Route(OriginStop(m), [MiddleStop(m)], EndStop(m)))
  {
    var locs := [OriginStop(m), MiddleStop(m), EndStop(m)];
    assert SplitRoute(locs).value.All() == locs;
    assert SplitRoute(locs).value == Route(OriginStop(m), [MiddleStop(m)], EndStop(m));
    InOrderUnchanged(locs);
  }

  /** The example response: a `locations` list and no `realtimeActivated` key. */
  function ThreeStopFields(): Fields {
    [("locations", List(ThreePlaces()))]
  }

  lemma ThreeStopKeys()
    ensures Get(ThreeStopFields(), "locations") == Some(List(ThreePlaces()))
    ensures !HasKey(ThreeStopFields(), "realtimeActivated")
  {
  }

  lemma ThreeStopPopulated(t: Train)
    ensures var m := Midnight(t.date);
      Populate(t, Dict(ThreeStopFields()))
      == Success(t.(route := Some(Route(OriginStop(m), [MiddleStop(m)], EndStop(m))), running := false))
  {
    var m := Midnight(t.date);
    var locs := [OriginStop(m), MiddleStop(m), EndStop(m)];
    var route := Route(OriginStop(m), [MiddleStop(m)], EndStop(m));
    ExtractThree(t.date);
    NormalizeThree(m);
    ThreeStopKeys();
    PopulateKnown(t, ThreeStopFields(), ThreePlaces(), locs, route);
  }

  /** A three-stop payload without realtime tracking: the origin departs 10:00, the
      middle stop is passed at 10:15, the destination is booked for 10:30 and reached
      at 10:33. The service is not running, has one calling point, and its effective
      arrival is the realtime 10:33. */
  lemma ThreeStopService(t: Train)
    ensures var r := Populate(t, Dict(ThreeStopFields()));
      && r.Success?
      && !r.value.running
      && |r.value.route.value.callingPoints| == 1
      && Arr(r.value.route.value.destination) == Some(Midnight(t.date) + 10 * 3600 + 33 * 60)
  {
    ThreeStopPopulated(t);
  }
}

=== FILE: urls.dfy ===
/** The client (`rtt`) and the request paths it builds: the station search
    (`_location_search_url`) and the per-service lookup (`Train.url`). "Today" is a
    parameter, not a clock reading. */
module Urls {
  import opened Wrappers
  import opened Errors
  import opened Text
  import opened Calendar
  import opened TimeParse

  const UrlPrefix := "https://api.rtt.io/api/v1/json"

  datatype Client = Client(endpoint: string, username: string, password: string) {
    /** `location_search`: the search-kind segment. */
    function LocationSearch(): string {
      "search" + endpoint
    }

    /** `train_search`: the service-kind segment. */
    function TrainSearch(): string {
      "service" + endpoint
    }
  }

  /** An ASCII upper-case letter. */
  predicate IsUpper(c: char) {
    'A' <= c <= 'Z'
  }

  /** `rtt(endpoint, username, password)`: both credentials are required; the endpoint
      is lower-cased and stripped of surrounding whitespace. */
  function NewClient(endpoint: string, username: Option<string>, password: Option<string>): (r: Result<Client, Error>)
    ensures r.Success? <==> username.Some? && password.Some?
    ensures r.Failure? ==> r.error == MissingCredentials
    ensures r.Success? ==> r.value.username == username.value && r.value.password == password.value
    ensures r.Success? ==> exists i :: Trims(Lower(endpoint), i, r.value.endpoint)
    ensures r.Success? ==> forall k :: 0 <= k < |r.value.endpoint| ==> !IsUpper(r.value.endpoint[k])
    ensures r.Success? && r.value.endpoint != [] ==> !IsSpace(r.value.endpoint[0]) && !IsSpace(r.value.endpoint[|r.value.endpoint| - 1])
  {
    if username.None? || password.None? then Failure(MissingCredentials)
    else
      NormalEndpoint(endpoint);
      Success(Client(Strip(Lower(endpoint)), username.value, password.value))
  }

  /** The endpoint `rtt` uses when none is given. */
  const DefaultEndpoint := "v1"

  /** With the default endpoint the client searches `searchv1` and looks services up
      under `servicev1`. */
  lemma DefaultEndpointKept(username: Option<string>, password: Option<string>)
    ensures NewClient(DefaultEndpoint, username, password).Success? ==>
      NewClient(DefaultEndpoint, username, password).value.endpoint == "v1"
    ensures NewClient(DefaultEndpoint, username, password).Success? ==>
      NewClient(DefaultEndpoint, username, password).value.LocationSearch() == "searchv1"
    ensures NewClient(DefaultEndpoint, username, password).Success? ==>
      NewClient(DefaultEndpoint, username, password).value.TrainSearch() == "servicev1"
  {
    DefaultEndpointNormal();
  }

  lemma DefaultEndpointNormal()
    ensures Strip(Lower(DefaultEndpoint)) == "v1"
  {
    var low := Lower(DefaultEndpoint);
    assert low[0] == LowerChar('v') && low[1] == LowerChar('1');
    assert low == "v1";
    StripKeeps("v1");
  }

  /** The stripped, lower-cased endpoint has no upper-case letter left. */
  lemma NormalEndpoint(endpoint: string)
    ensures forall k :: 0 <= k < |Strip(Lower(endpoint))| ==> !IsUpper(Strip(Lower(endpoint))[k])
  {
    var low := Lower(endpoint);
    LowerHasNoUpper(endpoint);
    var e := Strip(low);
    var i :| Trims(low, i, e);
    TrimKeepsNoUpper(low, i, e);
  }

  lemma LowerHasNoUpper(s: string)
    ensures forall k :: 0 <= k < |Lower(s)| ==> !IsUpper(Lower(s)[k])
  {
  }

  lemma TrimKeepsNoUpper(s: string, i: int, r: string)
    requires Trims(s, i, r) && forall k :: 0 <= k < |s| ==> !IsUpper(s[k])
    ensures forall k :: 0 <= k < |r| ==> !IsUpper(r[k])
  {
    forall k | 0 <= k < |r|
      ensures !IsUpper(r[k])
    {
      assert r[k] == s[i + k];
    }
  }

  /** `_location_search_url(station, search_date, to_station, to_time)`. */
  function SearchUrl(client: Client, station: string, searchDate: Option<ValidDate>, today: ValidDate,
                     toStation: Option<string>, toTime: Option<ValidClock>): string
  {
    var urlDate := FormatDate(searchDate.GetOr(today));
    var searchUrl :=
      if toStation.Some? then Join('/', [UrlPrefix, client.LocationSearch(), station, "to", toStation.value, urlDate])
      else Join('/', [UrlPrefix, client.LocationSearch(), station, urlDate]);
    if toTime.Some? then searchUrl + "/" + FormatClock(toTime.value) else searchUrl
  }

  /** The per-service lookup path built in `Train.__init__`. */
  function TrainUrl(client: Client, uid: string, date: ValidDate): string {
    Join('/', [UrlPrefix, client.TrainSearch(), uid, FormatDate(date)])
  }

  /** The fields a station-search path carries. */
  datatype SearchQuery = SearchQuery(kind: string, station: string, toStation: Option<string>,
                                     date: ValidDate, time: Option<(int, int)>)

  /** Reads an `%H%M` path segment. */
  function ParseClockSegment(t: string): Option<(int, int)> {
    if |t| == 4 then StrptimeHM(t) else None
  }

  /** Reads the segments of a station-search path after the prefix:
      `<kind>/<station>[/to/<station>]/<Y>/<m>/<d>[/<HHMM>]`; the number of segments
      tells the optional parts apart. */
  function ParseSearchSegments(segs: seq<string>): Option<SearchQuery> {
    var n := |segs|;
    if n < 5 || n > 8 || (n >= 7 && segs[2] != "to") then None
    else
      var d := if n >= 7 then 4 else 2;
      var date :- ParseDateFields(segs[d], segs[d + 1], segs[d + 2]);
      var to := if n >= 7 then Some(segs[3]) else None;
      if n == 6 || n == 8 then
        var hm :- ParseClockSegment(segs[n - 1]);
        Some(SearchQuery(segs[0], segs[1], to, date, Some(hm)))
      else
        Some(SearchQuery(segs[0], segs[1], to, date, None))
  }

  /** Reads a station-search path back. */
  function ParseSearchUrl(url: string): Option<SearchQuery> {
    var p := UrlPrefix + "/";
    if p <= url then ParseSearchSegments(Split(url[|p|..], '/')) else None
  }

  /** Reads a per-service path back into (kind, uid, date). */
  function ParseTrainUrl(url: string): Option<(string, string, ValidDate)> {
    var p := UrlPrefix + "/";
    if !(p <= url) then None
    else
      var segs := Split(url[|p|..], '/');
      if |segs| != 5 then None
      else
        var date :- ParseDateFields(segs[2], segs[3], segs[4]);
        Some((segs[0], segs[1], date))
  }

  function DateSegments(d: ValidDate): seq<string> {
    [Pad4(d.year), Pad2(d.month), Pad2(d.day)]
  }

  predicate NoSlash(segs: seq<string>) {
    forall i :: 0 <= i < |segs| ==> '/' !in segs[i]
  }

  lemma DateSegmentsNoSlash(d: ValidDate)
    ensures NoSlash(DateSegments(d))
  {
    PadsHaveNoSlash(d);
  }

  lemma ClockNoSlash(c: ValidClock)
    ensures '/' !in FormatClock(c)
  {
    var t := FormatClock(c);
    assert forall i :: 0 <= i < |t| ==> t[i] != '/';
  }

  lemma JoinCons(sep: char, segs: seq<string>)
    requires |segs| >= 2
    ensures Join(sep, segs) == segs[0] + [sep] + Join(sep, segs[1..])
  {
  }

  /** Joining a prefix, some segments and a date is joining the segments and the date's
      own three fields, after the prefix and a slash. */
  lemma {:induction false} JoinWithDate(pre: string, head: seq<string>, date: string, fields: seq<string>)
    requires |head| >= 1 && |fields| >= 1 && date == Join('/', fields)
    ensures Join('/', [pre] + head + [date]) == pre + "/" + Join('/', head + fields)
  {
    assert ([pre] + head + [date])[1..] == head + [date];
    JoinCons('/', [pre] + head + [date]);
    JoinAppend('/', head, [date]);
    JoinAppend('/', head, fields);
  }

  /** Appending one more segment to a joined path. */
  lemma JoinSnoc(segs: seq<string>, t: string)
    requires |segs| >= 1
    ensures Join('/', segs) + "/" + t == Join('/', segs + [t])
  {
    JoinAppend('/', segs, [t]);
  }

  /** The segments of a search path read back as the query they encode. */
  lemma SearchSegmentsRoundTrip(kind: string, station: string, toStation: Option<string>, d: ValidDate,
                                toTime: Option<ValidClock>)
    ensures var head := [kind, station] + (if toStation.Some? then ["to", toStation.value] else []);
      var tail := if toTime.Some? then [FormatClock(toTime.value)] else [];
      ParseSearchSegments(head + DateSegments(d) + tail)
      == Some(SearchQuery(kind, station, toStation, d,
                          if toTime.Some? then Some((toTime.value.hour, toTime.value.minute)) else None))
  {
    assert ParseDateFields(Pad4(d.year), Pad2(d.month), Pad2(d.day)) == Some(d);
    if toTime.Some? {
      StrptimeFormatClock(toTime.value);
    }
  }

  /** The segments before the date: the search kind, the station, and `to` with the
      destination when there is one. */
  function SearchHead(client: Client, station: string, toStation: Option<string>): seq<string> {
    [client.LocationSearch(), station] + (if toStation.Some? then ["to", toStation.value] else [])
  }

  /** The segments a station-search path is made of, after the prefix. */
  function SearchSegments(client: Client, station: string, d: ValidDate, toStation: Option<string>,
                          toTime: Option<ValidClock>): seq<string>
  {
    SearchHead(client, station, toStation) + DateSegments(d)
    + (if toTime.Some? then [FormatClock(toTime.value)] else [])
  }

  lemma UntimedIsJoin(client: Client, station: string, searchDate: Option<ValidDate>, today: ValidDate,
                      toStation: Option<string>)
    ensures SearchUrl(client, station, searchDate, today, toStation, None)
            == UrlPrefix + "/" + Join('/', SearchHead(client, station, toStation) + DateSegments(searchDate.GetOr(today)))
  {
    var d := searchDate.GetOr(today);
    var kind := client.LocationSearch();
    var head := SearchHead(client, station, toStation);
    if toStation.Some? {
      assert [UrlPrefix] + head + [FormatDate(d)] == [UrlPrefix, kind, station, "to", toStation.value, FormatDate(d)];
    } else {
      assert [UrlPrefix] + head + [FormatDate(d)] == [UrlPrefix, kind, station, FormatDate(d)];
    }
    JoinWithDate(UrlPrefix, head, FormatDate(d), DateSegments(d));
  }

  lemma SearchUrlIsJoin(client: Client, station: string, searchDate: Option<ValidDate>, today: ValidDate,
                        toStation: Option<string>, toTime: Option<ValidClock>)
    ensures SearchUrl(client, station, searchDate, today, toStation, toTime)
            == UrlPrefix + "/" + Join('/', SearchSegments(client, station, searchDate.GetOr(today), toStation, toTime))
  {
    var d := searchDate.GetOr(today);
    var flat := SearchHead(client, station, toStation) + DateSegments(d);
    UntimedIsJoin(client, station, searchDate, today, toStation);
    if toTime.Some? {
      var c := FormatClock(toTime.value);
      SearchUrlTime(client, station, searchDate, today, toStation, toTime.value);
      JoinSnoc(flat, c);
      assert UrlPrefix + "/" + Join('/', flat) + "/" + c == UrlPrefix + "/" + (Join('/', flat) + "/" + c);
    } else {
      assert flat + [] == flat;
    }
  }

  lemma ParsePrefixed(j: string)
    ensures ParseSearchUrl(UrlPrefix + "/" + j) == ParseSearchSegments(Split(j, '/'))
  {
    var p := UrlPrefix + "/";
    assert (p + j)[|p|..] == j;
  }

  /** Building a station-search path and reading it back gives the search kind, the
      station, the destination, the date (today's when none is given) and the time. */
  lemma SearchUrlRoundTrip(client: Client, station: string, searchDate: Option<ValidDate>, today: ValidDate,
                           toStation: Option<string>, toTime: Option<ValidClock>)
    requires '/' !in client.LocationSearch() && '/' !in station
    requires toStation.Some? ==> '/' !in toStation.value
    ensures ParseSearchUrl(SearchUrl(client, station, searchDate, today, toStation, toTime))
            == Some(SearchQuery(client.LocationSearch(), station, toStation, searchDate.GetOr(today),
                                if toTime.Some? then Some((toTime.value.hour, toTime.value.minute)) else None))
  {
    var d := searchDate.GetOr(today);
    var segs := SearchSegments(client, station, d, toStation, toTime);
    SearchUrlIsJoin(client, station, searchDate, today, toStation, toTime);
    ParsePrefixed(Join('/', segs));
    assert '/' !in "to";
    DateSegmentsNoSlash(d);
    if toTime.Some? {
      ClockNoSlash(toTime.value);
    }
    assert NoSlash(segs);
    SplitJoin('/', segs);
    SearchSegmentsRoundTrip(client.LocationSearch(), station, toStation, d, toTime);
  }

  /** Building a per-service path and reading it back gives the service kind, the uid
      and the date. */
  lemma TrainUrlRoundTrip(client: Client, uid: string, date: ValidDate)
    requires '/' !in client.TrainSearch() && '/' !in uid
    ensures ParseTrainUrl(TrainUrl(client, uid, date)) == Some((client.TrainSearch(), uid, date))
  {
    var head := [client.TrainSearch(), uid];
    assert [UrlPrefix] + head + [FormatDate(date)] == [UrlPrefix, client.TrainSearch(), uid, FormatDate(date)];
    JoinWithDate(UrlPrefix, head, FormatDate(date), DateSegments(date));
    var segs := head + DateSegments(date);
    var url := TrainUrl(client, uid, date);
    assert url[|UrlPrefix + "/"|..] == Join('/', segs);
    DateSegmentsNoSlash(date);
    assert NoSlash(segs);
    SplitJoin('/', segs);
    assert ParseDateFields(Pad4(date.year), Pad2(date.month), Pad2(date.day)) == Some(date);
  }

  lemma JoinFour(a: string, b: string, c: string, d: string)
    ensures Join('/', [a, b, c, d]) == a + "/" + b + "/" + c + "/" + d
  {
    JoinCons('/', [a, b, c, d]);
    JoinCons('/', [b, c, d]);
    JoinCons('/', [c, d]);
  }

  lemma JoinSix(a: string, b: string, c: string, d: string, e: string, f: string)
    ensures Join('/', [a, b, c, d, e, f]) == a + "/" + b + "/" + c + "/" + d + "/" + e + "/" + f
  {
    JoinCons('/', [a, b, c, d, e, f]);
    JoinCons('/', [b, c, d, e, f]);
    JoinFour(c, d, e, f);
  }

  /** The search path is the prefix, the search kind, the station and the date. */
  lemma SearchUrlPlain(client: Client, station: string, searchDate: Option<ValidDate>, today: ValidDate)
    ensures SearchUrl(client, station, searchDate, today, None, None)
            == UrlPrefix + "/search" + client.endpoint + "/" + station + "/" + FormatDate(searchDate.GetOr(today))
  {
    var d := FormatDate(searchDate.GetOr(today));
    var kind := client.LocationSearch();
    JoinFour(UrlPrefix, kind, station, d);
    assert UrlPrefix + "/" + kind == UrlPrefix + "/search" + client.endpoint;
  }

  /** With a destination, `to` and the destination come between the station and the date. */
  lemma SearchUrlTo(client: Client, station: string, searchDate: Option<ValidDate>, today: ValidDate,
                    toStation: string)
    ensures SearchUrl(client, station, searchDate, today, Some(toStation), None)
            == UrlPrefix + "/search" + client.endpoint + "/" + station + "/to/" + toStation + "/"
               + FormatDate(searchDate.GetOr(today))
  {
    var d := FormatDate(searchDate.GetOr(today));
    var kind := client.LocationSearch();
    JoinSix(UrlPrefix, kind, station, "to", toStation, d);
    assert UrlPrefix + "/" + kind == UrlPrefix + "/search" + client.endpoint;
    var u := UrlPrefix + "/search" + client.endpoint + "/" + station;
    assert u + "/" + "to" + "/" == u + "/to/";
  }

  /** A time adds exactly one more `/HHMM` segment to the path without one. */
  lemma SearchUrlTime(client: Client, station: string, searchDate: Option<ValidDate>, today: ValidDate,
                      toStation: Option<string>, toTime: ValidClock)
    ensures SearchUrl(client, station, searchDate, today, toStation, Some(toTime))
            == SearchUrl(client, station, searchDate, today, toStation, None) + "/" + FormatClock(toTime)
  {
  }
}

=== FILE: wrappers.dfy ===
/** The two failure-compatible wrappers the model is written with. */
module Wrappers {

  /** Python's `None` or a value. */
  datatype Option<+T> = None | Some(value: T) {

    predicate IsFailure() {
      None?
    }

    function PropagateFailure<U>(): Option<U>
      requires None?
    {
      None
    }

    function Extract(): T
      requires Some?
    {
      value
    }

    /** The value, or `default` when there is none. */
    function GetOr(default: T): T {
      if Some? then value else default
    }
  }

  /** The outcome of a step that may raise: its value, or the exception raised. */
  datatype Result<+T, +E> = Success(value: T) | Failure(error: E) {

    predicate IsFailure() {
      Failure?
    }

    function PropagateFailure<U>(): Result<U, E>
      requires Failure?
    {
      Failure(error)
    }

    function Extract(): T
      requires Success?
    {
      value
    }
  }

  /** Applies `f` to each element in order, stopping at the first failure, as a Python
      loop stops at the first exception. */
  function MapAll<A, B(==), E(==)>(f: A -> Result<B, E>, xs: seq<A>): (r: Result<seq<B>, E>)
    ensures r.Success? ==> |r.value| == |xs|
    ensures r.Success? ==> forall i :: 0 <= i < |xs| ==> f(xs[i]) == Success(r.value[i])
    ensures r.Success? <==> forall i :: 0 <= i < |xs| ==> f(xs[i]).Success?
    ensures r.Failure? ==> exists i :: FirstFailureAt(f, xs, i) && f(xs[i]) == Failure(r.error)
  {
    if |xs| == 0 then Success([])
    else
      var first := f(xs[0]);
      if first.Failure? then
        assert FirstFailureAt(f, xs, 0);
        Failure(first.error)
      else
        var rest := MapAll(f, xs[1..]);
        assert forall i :: 1 <= i < |xs| ==> xs[1..][i - 1] == xs[i];
        if rest.Failure? then
          var k :| FirstFailureAt(f, xs[1..], k) && f(xs[1..][k]) == Failure(rest.error);
          assert FirstFailureAt(f, xs, k + 1);
          Failure(rest.error)
        else
          Success([first.value] + rest.value)
  }

  /** Element `i` is the first on which `f` fails. */
  predicate FirstFailureAt<A, B, E>(f: A -> Result<B, E>, xs: seq<A>, i: int) {
    0 <= i < |xs| && f(xs[i]).Failure? && forall j :: 0 <= j < i ==> f(xs[j]).Success?
  }
}

/** The exceptions the client raises, named after the Python exception kinds. */
module Errors {

  datatype Error =
    | KeyError(key: string)   // a dictionary subscript with a missing key
    | TypeError               // a value of the wrong kind, or `None < datetime`
    | ValueError(text: string) // strptime or int() rejected a time string
    | IndexError              // `locations[0]` of an empty location list
    | MissingCredentials      // the client was built without username or password
    | OverflowError           // datetime arithmetic left the years 1 to 9999
}
